=== FILE: README.md ===
# Monte-Carlo sensor-response archive (ANTEA `mc_io`)

ANTEA stores simulated PET sensor responses in an HDF5 archive with four
tables under `/MC`:

- `extents`: one row per event. It holds the zero-based, inclusive index of
  the event's last row in each of the sibling tables:
  - `last_hit` in `hits`;
  - `last_particle` in `particles`;
  - `last_sns_data` (and, in simulation files, `last_sns_tof`) in `waveforms`.
- `hits` and `particles`: the provenance rows copied from the simulation.
- `waveforms`: flat rows of `(sensor_id, time_bin, charge)`.

This project models three parts of `antea/io/mc_io.py` and proves properties
about them.

**The consolidating writer `mc_sns_response_writer`.** It copies events from
several source archives into one output archive. Every source archive's
extent index starts at zero, so the writer rebases each source counter onto
the output's running totals. It uses one of four offset rules, and which
rule applies depends on:

- whether the match is the first row of its source;
- whether this is the first file;
- whether this is the first event written.

The cursor is part of the model: `last_row`, the identity of the current
source tables, the three cumulative counters and the two flags.

**The reader `read_mcsns_response_evt` and its driver `go_through_file`.**
The reader rebuilds one event from the flat waveform table:

- it takes the segment between two boundaries of the extent index;
- it groups consecutive rows of the same sensor into one `Waveform`;
- it scales time bins by the bin width.

The driver reads every extent row in a range and files the result under the
row's event number.

**The bin-width lookup and the two public readers.**

- `read_SiPM_bin_width_from_conf` picks the last SiPM `time_binning` entry of
  the configuration table.
- `read_mcsns_response` reads the `data` waveforms at the configured bin
  width.
- `read_mcTOFsns_response` reads the `tof` waveforms at 5 ps.

Modules:

- `Py`: the Python semantics the code relies on:
  - exceptions as a `Result`;
  - indexing with negative indices;
  - the insertion-ordered `dict`, as a duplicate-free association list whose
    assignment overwrites in place or appends.
- `Records`: the row shapes.
- `Writer`: the writer as a pure step `Step` on an immutable writer value.
- `Reader`: the reader and the traversal, with an independent reference
  definition of the grouping: the maximal runs `Runs` of a row sequence.
- `Config`: the bin-width lookup and the two public readers.
- `RoundTrip`: the agreement between the writer and the reader. Starting
  from a fresh writer, any session of successful calls leaves an archive in
  which:
  - every extent counter is the running total of rows written, minus one;
  - every written event reads back as its response, one waveform per
    sensor, in the response's order, given the model's unbounded counters
    (see "## Left out" for the unsigned column of the source).

Two behaviours of the code that follow from its text and are worth stating
on their own:

- The reader's scan (`antea/io/mc_io.py:187-199`) runs over
  `range(last_row, int(1e9))`. For an event absent from the rest of the
  extent table it raises the table's `IndexError` once the index passes the
  last row (`Reader.ReadEventAbsent`). An empty dict comes back only in two
  cases:
  - the matched row's counter lies before the segment start (line 199);
  - the scan reaches `int(1e9)` rows.
- Of the writer's four offset rules (`antea/io/mc_io.py:80-104`), the third
  (lines 93-99: not the source's first row, `first_extent_row` still set)
  applies only to the first event ever written. The two flags are always
  equal (`Writer.WvfTracks`), so a later file never takes that branch.

## Model

| member | source | states |
|---|---|---|
| `Py.Set` | antea/io/mc_io.py:244 | Dict assignment: the key then maps to the new value and every other key keeps its value. An existing key keeps its position. A new key is appended at the end. |
| `Py.FromPairsLastWins` | antea/io/mc_io.py:238-244 | Filing a sequence of pairs into a dict gives each key the value of its last occurrence. A key that never occurs keeps its earlier value. |
| `Py.FromPairsKeys` | antea/io/mc_io.py:238-244 | After the pairs are filed, the dict's keys are exactly the earlier keys plus the keys of the pairs. |
| `Writer.RetargetKeepsCounters` | antea/io/mc_io.py:72-74 | Tables other than the previous call's restart the scan at row 0. The same tables continue from `last_row`. Nothing else in the cursor changes. |
| `Writer.Find` | antea/io/mc_io.py:76-79 | The scan returns the first row at or after the start that records the event. It returns no row exactly when no such row exists. |
| `Writer.Commit` | antea/io/mc_io.py:80-158 | One matched call appends exactly one extent record, which carries the new counters. It also appends the provenance rows and one waveform row per response entry, and moves `last_row` one past the match. |
| `Writer.Step` | antea/io/mc_io.py:70-158 | A call fails with `NotFound` exactly when the event is absent from the scanned rows. It fails with `KeyError` when the event has no response. Otherwise it matches the first occurrence from the start row, leaves `last_row` one past it, and clears the flags. It appends one extent record holding its counters, the provenance rows verbatim, and the response's rows in order at time bin 0. Past the first event, the waveform counter grows by the sensor count. |
| `Writer.StepKeepsWvfTracks` | antea/io/mc_io.py:80-115 | Across all four offset rules, the waveform counter stays "rows written minus one". The last extent record carries the writer's counters, and the two flags stay equal. |
| `Writer.StepKeepsProvenanceTracks` | antea/io/mc_io.py:80-121 | The hit and particle counters stay "rows written minus one", for a source whose extent index accounts for the rows its provenance reader returns. |
| `Writer.ResetScenario` | antea/io/mc_io_test.py:26-32 | A new writer starts at row 0, a call for the event of the first source row moves it to 1, and `reset()` brings it back to 0. |
| `Writer.AbsentEventDesynchronisesCounter` | antea/io/mc_io.py:77-123 | As written, a call for an event absent from the scanned rows succeeds: it appends waveform rows but no extent record, and moves the cursor past the table. This breaks the counter invariant. The corrected step reports `NotFound` instead. |
| `Writer.StepAgreesWhenFound` | antea/io/mc_io.py:76-123 | When the event is among the scanned rows, the source's behaviour and the corrected step coincide. |
| `Writer.FirstCounter` | antea/io/mc_io.py:80-108 | The first event ever written stores its sensor count minus one as its `last_sns_data` counter, under rule 1 (line 84) or rule 3 (line 97); an empty first response stores -1. |
| `Reader.Rows` | antea/io/mc_io.py:203-204 | Reading rows `lo..hi` inclusive succeeds exactly when every index is valid for Python indexing. It fails with `IndexError` otherwise, and yields `hi - lo + 1` rows, row `k` being the table's row `k`. |
| `Reader.Group` | antea/io/mc_io.py:200-224 | Every waveform of a grouped event carries the bin width it was read with. |
| `Reader.RunsPartition` | antea/io/mc_io.py:200-224 | The reference runs are maximal (neighbouring runs have different sensors), and concatenated they give back the rows. |
| `Reader.GroupStoresRuns` | antea/io/mc_io.py:200-224 | The grouping loop equals filing the maximal runs into a dict, one waveform per run. |
| `Reader.GroupLookupAbsent` | antea/io/mc_io.py:200-224 | A sensor with no row in the segment has no entry in the event. |
| `Reader.GroupLookupLastRun` | antea/io/mc_io.py:207-224 | A sensor whose rows are split into several runs keeps only its last run's waveform. |
| `Reader.GroupLastKey` | antea/io/mc_io.py:223-224 | When the last run's sensor occurs nowhere earlier, the event's last key is the segment's last sensor, holding that run's waveform. |
| `Reader.RunsOfAlternating` | antea/io/mc_io.py:203-221 | Rows whose neighbours always differ in sensor form one single-sample run each. |
| `Reader.ScanFinds` | antea/io/mc_io.py:193-195 | The scan returns the first row at or after the cursor that records the event. |
| `Reader.ScanRunsOff` | antea/io/mc_io.py:193-194 | In a table of fewer than `int(1e9)` rows, a scan that finds nothing raises `IndexError`. |
| `Reader.ScanGivesUp` | antea/io/mc_io.py:187-195 | Only when the table has at least `int(1e9)` rows does a fruitless scan end quietly with nothing found. |
| `Reader.RowsSlice` | antea/io/mc_io.py:203-204 | Within the table, the rows read are the table's slice `lo..hi`. |
| `Reader.ReadEventSegment` | antea/io/mc_io.py:186-224 | The event read with a cursor is built from these rows: from one past the counter of the row before the cursor (0 at cursor 0) to the matched row's counter. It is empty when the segment is inverted. It raises `IndexError` when the segment overruns the waveform table. |
| `Reader.ReadEventAbsent` | antea/io/mc_io.py:193-199 | An event missing from the rest of a table of fewer than `int(1e9)` rows raises `IndexError`. |
| `Reader.ReadEvent` | antea/io/mc_io.py:179-227 | Every waveform read carries the requested bin width. |
| `Reader.GoThroughFile` | antea/io/mc_io.py:229-246 | Every event filed carries the requested bin width. |
| `Reader.TraverseFolds` | antea/io/mc_io.py:238-244 | When every visited row reads, the traversal is the fold of dict assignments over the visited rows' `(event number, event)` pairs, in row order. |
| `Reader.GoThroughFileSucceeds` | antea/io/mc_io.py:238-244 | The traversal succeeds exactly when every row from `lo` up to the smaller of `hi` and the table length reads with itself as cursor. |
| `Reader.GoThroughFileMissingColumn` | antea/io/mc_io.py:191-198 | When the first visited extent row lacks the requested counter column, the traversal raises numpy's `ValueError` for the missing record field, from the row before it or from the row itself. |
| `Reader.GoThroughFileVisits` | antea/io/mc_io.py:229-246 | When every row in range reads, the traversal succeeds. Its keys are exactly the event numbers of the rows from `lo` up to the smaller of `hi` and the table length. A repeated event number holds the read of its last row. |
| `Reader.GoThroughFileReads` | antea/io/mc_io.py:229-246 | The traversal's whole promise, for either waveform kind: it succeeds exactly when every row in range reads with itself as cursor, and then files each row's event under its event number, the last row of a repeated number winning. |
| `Reader.ReadEventNegativeCursor` | antea/io/mc_io.py:186-224 | A negative cursor matches the row that many places from the end at once, yet the segment starts at waveform row 0 because only a positive cursor consults the row before. The event therefore takes in the waveform rows of every earlier event, or is empty when the counter is negative. |
| `Config.TokenLen` | antea/io/mc_io.py:169 | The leading token is a maximal run of non-whitespace characters. |
| `Config.Split` | antea/io/mc_io.py:169 | `str.split()` yields non-empty tokens free of whitespace, one for every position where a non-whitespace character starts the string or follows whitespace. Joined by single spaces, they give the input with leading and trailing whitespace dropped and each inner whitespace run reduced to one space (`Config.Collapse`, defined character by character), which fixes their contents. |
| `Config.SplitJoin` | antea/io/mc_io.py:169 | Non-empty, whitespace-free tokens joined by single spaces split back into exactly those tokens. |
| `Config.SplitNumberUnit` | antea/io/mc_io.py:169 | A value written as a number, a space and a unit unpacks into exactly that number and unit. |
| `Config.BinningLoop` | antea/io/mc_io.py:165-171 | The loop raises `ValueError` exactly when some `time_binning` value does not split into two tokens, whether or not it names the SiPMs. Otherwise the last SiPM entry's tokens are kept, or the initial value when there is none. |
| `Config.ReadSiPMBinWidth` | antea/io/mc_io.py:161-176 | The bin width is the last SiPM `time_binning` entry's number scaled by its unit, or 1 µs when no such entry exists. A malformed time-binning entry raises `ValueError`. |
| `Config.ReadMcSnsResponse` | antea/io/mc_io.py:248-257 | A malformed configuration raises `ValueError`. Otherwise every waveform read carries the configured SiPM bin width, or 1 µs when none is configured. Events are read through the `last_sns_data` counters: the call succeeds exactly when every row in range reads with that column, and then files each row's event under its event number, the last row of a repeated number winning. |
| `Config.ReadMcTofSnsResponse` | antea/io/mc_io.py:259-268 | Every time-of-flight waveform read carries 5 ps. Events are read through the `last_sns_tof` counters, with the same success condition and filing as the energy reader. A first visited extent row without that column raises numpy's `ValueError` for the missing record field. |
| `RoundTrip.GroupWrittenRows` | antea/io/mc_io.py:152-157 | The rows written for a non-empty response group back into exactly that response. |
| `RoundTrip.CountersNondecreasing` | antea/io/mc_io.py:106-115 | In a consistent archive, the stored `last_sns_data` counters never decrease from one event to the next. |
| `RoundTrip.StepAppends` | antea/io/mc_io.py:106-158 | A successful call appends one extent record for the event, whose counter indexes the last of the response's rows. The rows themselves are appended after the earlier ones. |
| `RoundTrip.StepReadsBack` | antea/io/mc_io.py:70-227 | A successful call keeps the counter invariant and the read-back invariant, with the written response added to the log. |
| `RoundTrip.ReadEventFrame` | antea/io/mc_io.py:186-224 | Appending extents and waveform rows does not change what an earlier event reads. |
| `RoundTrip.ReplayKeeps` | antea/io/mc_io.py:70-158 | Both invariants hold from the first to the last writer of a session of successful calls. |
| `RoundTrip.TraversalReadsBack` | antea/io/mc_io.py:229-246 | When every logged event reads back, the whole-file traversal succeeds. It files each event number under the last response logged for it. |
| `RoundTrip.SessionReadsBackFromFile` | antea/io/mc_io.py:248-257 | After a session from a fresh writer, `read_mcsns_response` with a well-formed configuration succeeds on the archive. Each event number comes back as the last response written under it, at the configured bin width. |
| `RoundTrip.SessionUnreadableAsTof` | antea/io/mc_io.py:106-111 | The writer records only `last_sns_data`, so after a session that wrote at least one event, `read_mcTOFsns_response` on the archive, read against a supplied `tof_waveforms` table, raises numpy's `ValueError` for the missing record field. |
| `RoundTrip.SessionReadsBack` | antea/io/mc_io.py:70-246 | After a session from a fresh writer, every written event reads back as its response. This holds both one by one with its own extent row as cursor and through `go_through_file`. |

## Left out

- Reading and writing HDF5: table creation, compression filters, `flush`, opening files, the `columns_to_index` attribute. The tables are sequences and every call sees its own data.
- `read_mcinfo_evt` belongs to the host framework. It is a function parameter (`Writer.McInfoReader`), and the hit and particle counters are proved only for sources whose extent index accounts for the rows it returns.
- `float(numb) * units_dict[unit]`: the model takes the conversion as a function parameter of `Config.ReadSiPMBinWidth`. It does not model float parsing or the `KeyError` of an unknown unit.
- The UTF-8 decoding of the configuration keys and values: the rows are already text.
- Floating point: times, charges and bin widths are reals, and the `Float32` storage of charges and times is not modelled.
- Integer widths: the counters and event numbers are unbounded integers. The extent counters are unsigned 64-bit columns (`antea/io/nh5.py:13-15`), and the model does not represent them. A stored -1 is where this matters (`Writer.FirstCounter`; see the `RoundTrip.SessionReadsBack` line below).
- The object's unused `bin_width` attribute (1 ms, line 27) plays no part in any output.
- `mc_sns_response_writer` identifies the source tables by Python object identity. The model uses an explicit identifier per source.
- A writer call that raises after retargeting leaves the Python object partly updated: `current_tables` is already set and `last_row` reset. The model's failed call returns an error and keeps the earlier writer.
- `Writer.StepAsWritten`: `read_mcinfo_evt` (line 121) is a total function here, so the as-written call for an absent event goes on to append rows. The model assumes the host reader returns, for example empty lists, for an event it does not find. If it raises instead, the call fails before lines 122-158 and no rows are appended. Its code is not part of this model.
- `Writer.Step`: an absent event gives `NotFound`, which is the corrected behaviour. The source's behaviour is `Writer.StepAsWritten` (see Findings).
- `RoundTrip.SessionReadsBack`: holds for the source only when the first response written has at least one sensor. Otherwise the writer stores -1 as the first `last_sns_data` counter (`Writer.FirstCounter`, line 108) in an unsigned 64-bit column. NumPy 1.x wraps it to 2^64-1, so reading that event runs off the waveform table (lines 198, 203-204) with `IndexError`, and every later event reads back empty (line 199). NumPy 2 refuses the write with `OverflowError`. The model keeps -1, and that event reads back empty.
- `RoundTrip.SessionReadsBackFromFile`: holds for the source only when the first response written has at least one sensor, for the reason given on the line above. With an empty first response, `read_mcsns_response` on the source's archive raises `IndexError` or the write has already failed.
- `RoundTrip.ReplayKeeps`: only sessions of at most `int(1e9)` calls are covered, because beyond that the reader's scan stops at its fixed bound.
- `Reader.TraverseFolds`: the fold of dict assignments is stated only for a start of 0 or more. A negative start is read by `Reader.GoThroughFile` but described only row by row, by `Reader.ReadEventNegativeCursor`.
- `Reader.GoThroughFileVisits`: the success and filing of the traversal is stated only for a start of 0 or more. A negative start is read by `Reader.GoThroughFile` but described only row by row, by `Reader.ReadEventNegativeCursor`.
- `Reader.GoThroughFileSucceeds`: the success condition of the traversal is stated only for a start of 0 or more. A negative start is read by `Reader.GoThroughFile` but described only row by row, by `Reader.ReadEventNegativeCursor`.
- `Reader.GoThroughFileReads`: the traversal's success condition and filing is stated only for a start of 0 or more. A negative start is read by `Reader.GoThroughFile` but described only row by row, by `Reader.ReadEventNegativeCursor`.
- `Config.ReadMcSnsResponse`: the success condition and filing through `last_sns_data` is stated only for a start of 0 or more. A negative start is read by `Reader.GoThroughFile` but described only row by row, by `Reader.ReadEventNegativeCursor`.
- `Config.ReadMcTofSnsResponse`: the success condition and filing through `last_sns_tof` is stated only for a start of 0 or more. A negative start is read by `Reader.GoThroughFile` but described only row by row, by `Reader.ReadEventNegativeCursor`.
- `Reader.GoThroughFile`: `range(*event_range)` (line 238) accepts one-element and three-element tuples and a step. The model takes exactly a start and a stop with step 1, the shape of the default `(0, int(1e9))` of every reader in the module. Other tuple shapes and steps are not modelled.
- The archive nodes `/MC/configuration` (line 163) and `/MC/tof_waveforms` (line 265) are taken as given inputs of `Config.ReadSiPMBinWidth` and `Config.ReadMcTofSnsResponse`. The writer creates only the extents, hits, particles and waveforms tables (lines 46-67), so on its own archive both lookups would fail when the node is missing. The model does not represent an absent node.
- `RoundTrip.SessionReadsBackFromFile`: takes the configuration rows as supplied alongside the session's archive, for the same reason.
- `RoundTrip.SessionUnreadableAsTof`: takes the `tof_waveforms` table as supplied alongside the session's archive, for the same reason.
- The table schemas of `antea/io/nh5.py`, beyond the counter width above, and the database helpers of `antea/database/load_db.py` are not part of this model.

## Findings

| source | as written | input that shows it | evidently intended | confidence | as-written member | corrected member |
|---|---|---|---|---|---|---|
| antea/io/mc_io.py:77-123 | When no extent row from `last_row` on records `evt_number`, the loop ends without a match. The call still copies the provenance rows and appends the event's waveform rows but no extent record, leaving `last_row = len(extents)` from the last loop value of `iext`. | Source extents recording events 0, 1 and 2. A fresh writer writes event 0 with a response of two sensors, so its counter is 1. It is then called on the same tables for event 7 with a response of one sensor. Rows 1 and 2 do not match. `read_mcinfo_evt` returns empty hit and particle lists for event 7, and the waveform table grows to 3 rows while the last extent counter stays at 1. | The call should refuse an event it cannot find rather than write waveform rows that no extent record accounts for. | not executed; holds when `read_mcinfo_evt` returns for an event it does not find, since its code is not part of this model | `Writer.AbsentEventDesynchronisesCounter` | `Writer.StepKeepsWvfTracks` |

=== FILE: config.dfy ===
/** The bin width of the energy waveforms, read from the archive's key/value
    configuration table (`read_SiPM_bin_width_from_conf`), and the two public
    readers that differ only in the waveform kind and the bin width they use.
 */
module Config {
  import opened Py
  import opened Records
  import Reader

  // The host framework's system of units counts time in nanoseconds.
  const NANOSECOND: real := 1.0
  const MICROSECOND: real := 1000.0 * NANOSECOND
  const PICOSECOND: real := 0.001 * NANOSECOND

  /** The bin width used when the configuration names none. */
  const DEFAULT_BIN_WIDTH: real := 1.0 * MICROSECOND

  /** The fixed bin width of the time-of-flight waveforms. */
  const TOF_BIN_WIDTH: real := 5.0 * PICOSECOND

  const TIME_BINNING: string := "time_binning"
  const SIPM: string := "SiPM"

  /** Python's `str.isspace` for one character. */
  predicate IsSpace(c: char)
  {
    || c == ' '
    || ('\t' <= c <= '\r')
    || ('\U{1C}' <= c <= '\U{1F}')
    || c == '\U{85}' || c == '\U{A0}' || c == '\U{1680}'
    || ('\U{2000}' <= c <= '\U{200A}')
    || c == '\U{2028}' || c == '\U{2029}' || c == '\U{202F}' || c == '\U{205F}' || c == '\U{3000}'
  }

  /** The length of the leading run of non-space characters. */
  function TokenLen(s: string): (n: nat)
    ensures n <= |s|
    ensures forall i | 0 <= i < n :: !IsSpace(s[i])
    ensures n < |s| ==> IsSpace(s[n])
  {
    if |s| == 0 || IsSpace(s[0]) then 0 else 1 + TokenLen(s[1..])
  }

  /** How many tokens start in `s`: the non-space characters that come
      first or right after a space; `afterSpace` says whether the character
      before `s` counts as a space. */
  function Starts(s: string, afterSpace: bool): nat
    decreases |s|
  {
    if |s| == 0 then 0
    else (if afterSpace && !IsSpace(s[0]) then 1 else 0) + Starts(s[1..], IsSpace(s[0]))
  }

  /** `s` with leading and trailing whitespace dropped and every inner run
      of whitespace replaced by one space, read character by character:
      `seen` says whether a non-space character came before, `gap` whether
      a space came since the last one. */
  function Squeeze(s: string, seen: bool, gap: bool): string
    decreases |s|
  {
    if |s| == 0 then ""
    else if IsSpace(s[0]) then Squeeze(s[1..], seen, true)
    else (if seen && gap then " " else "") + [s[0]] + Squeeze(s[1..], true, false)
  }

  function Collapse(s: string): string
  {
    Squeeze(s, false, false)
  }

  /** `s.split()`: the maximal runs of non-space characters, in order, one
      for every token start; joined by single spaces they give back the
      collapsed input, which together with the first two clauses fixes the
      tokens' contents. */
  function Split(s: string): (tokens: seq<string>)
    ensures forall k | 0 <= k < |tokens| :: |tokens[k]| > 0
    ensures forall k, i | 0 <= k < |tokens| && 0 <= i < |tokens[k]| :: !IsSpace(tokens[k][i])
    ensures |tokens| == Starts(s, true)
    ensures Join(tokens) == Collapse(s)
    decreases |s|
  {
    if |s| == 0 then []
    else if IsSpace(s[0]) then
      SqueezeUnseen(s[1..]);
      Split(s[1..])
    else
      var n := TokenLen(s);
      StartsSkip(s, n);
      var rest := Split(s[n..]);
      CollapseToken(s, n, rest);
      [s[..n]] + rest
  }

  /** A leading token followed by the tokens of the rest joins into the
      collapsed input. */
  lemma CollapseToken(s: string, n: nat, rest: seq<string>)
    requires 1 <= n == TokenLen(s)
    requires Join(rest) == Collapse(s[n..])
    requires |rest| > 0 ==> |rest[0]| > 0
    ensures Join([s[..n]] + rest) == Collapse(s)
  {
    SqueezeToken(s[1..], n - 1);
    SqueezeGap(s[n..]);
    assert s[1..][n - 1..] == s[n..];
    assert [s[0]] + s[1..][..n - 1] == s[..n];
    assert ([s[..n]] + rest)[1..] == rest;
  }

  /** Inside a token the collapsed text copies the token, then continues as
      after a gap. */
  lemma {:induction false} SqueezeToken(s: string, n: nat)
    requires n == TokenLen(s)
    ensures Squeeze(s, true, false) == s[..n] + Squeeze(s[n..], true, true)
    decreases n
  {
    if n > 0 {
      SqueezeToken(s[1..], n - 1);
      assert s[1..][n - 1..] == s[n..];
      assert [s[0]] + s[1..][..n - 1] == s[..n];
    }
  }

  /** After a gap, a further token is preceded by exactly one space. */
  lemma {:induction false} SqueezeGap(s: string)
    ensures Squeeze(s, true, true) == if Collapse(s) == "" then "" else " " + Collapse(s)
    decreases |s|
  {
    if |s| > 0 && IsSpace(s[0]) {
      SqueezeGap(s[1..]);
      SqueezeUnseen(s[1..]);
    }
  }

  /** Before the first token, whitespace leaves nothing behind. */
  lemma SqueezeUnseen(s: string)
    ensures Squeeze(s, false, true) == Squeeze(s, false, false)
  {
  }

  /** Inside a token no new token starts: the count resumes where it ends. */
  lemma {:induction false} StartsSkip(s: string, n: nat)
    requires 1 <= n <= |s|
    requires forall i | 0 <= i < n :: !IsSpace(s[i])
    requires n < |s| ==> IsSpace(s[n])
    ensures Starts(s[1..], false) == Starts(s[n..], true)
    decreases n
  {
    if n > 1 {
      StartsSkip(s[1..], n - 1);
      assert s[1..][1..] == s[2..];
      assert s[1..][n - 1..] == s[n..];
    }
  }

  /** `" ".join(tokens)` */
  function Join(tokens: seq<string>): string
  {
    if |tokens| == 0 then ""
    else if |tokens| == 1 then tokens[0]
    else tokens[0] + " " + Join(tokens[1..])
  }

  /** Tokens joined by single spaces split back into the same tokens. */
  lemma {:induction false} SplitJoin(tokens: seq<string>)
    requires forall k | 0 <= k < |tokens| :: |tokens[k]| > 0
    requires forall k, i | 0 <= k < |tokens| && 0 <= i < |tokens[k]| :: !IsSpace(tokens[k][i])
    ensures Split(Join(tokens)) == tokens
  {
    if |tokens| == 1 {
      SplitToken(tokens[0], "");
      assert tokens[0] + "" == tokens[0];
    } else if |tokens| > 1 {
      var rest := tokens[1..];
      SplitJoin(rest);
      var tail := " " + Join(rest);
      SplitToken(tokens[0], tail);
      assert tokens[0] + " " + Join(rest) == tokens[0] + tail;
      assert tail[1..] == Join(rest);
      assert [tokens[0]] + rest == tokens;
    }
  }

  /** `s.find(sub) >= 0` */
  predicate Contains(s: string, sub: string)
    decreases |s|
  {
    sub <= s || (|s| > 0 && Contains(s[1..], sub))
  }

  predicate IsBinning(row: ConfigRow)
  {
    Contains(row.key, TIME_BINNING)
  }

  predicate IsSiPMBinning(row: ConfigRow)
  {
    IsBinning(row) && Contains(row.key, SIPM)
  }

  /** A time-binning value that `numb, unit = value.split()` cannot unpack. */
  predicate Malformed(row: ConfigRow)
  {
    IsBinning(row) && |Split(row.value)| != 2
  }

  /** The number and unit tokens of a well-formed value. */
  function NumberAndUnit(value: string): Option<(string, string)>
  {
    var tokens := Split(value);
    if |tokens| == 2 then Some((tokens[0], tokens[1])) else None
  }

  /** The loop over the configuration rows, `found` holding the tokens kept
      so far. Every time-binning value must unpack into two tokens, whether
      or not its key names the SiPMs; the last SiPM time-binning row wins. */
  function BinningLoop(rows: seq<ConfigRow>, found: Option<(string, string)>): (r: Result<Option<(string, string)>>)
    ensures r.Err? <==> exists i | 0 <= i < |rows| :: Malformed(rows[i])
    ensures r.Err? ==> r.error == ValueError
    ensures r.Ok? && (forall i | 0 <= i < |rows| :: !IsSiPMBinning(rows[i])) ==> r.value == found
    ensures r.Ok? ==>
              forall i | 0 <= i < |rows| && IsSiPMBinning(rows[i]) && (forall j | i < j < |rows| :: !IsSiPMBinning(rows[j])) ::
                r.value == NumberAndUnit(rows[i].value)
    decreases |rows|
  {
    if |rows| == 0 then Ok(found)
    else
      var row := rows[0];
      if IsBinning(row) then
        var tokens := Split(row.value);
        if |tokens| != 2 then Err(ValueError)
        else
          var r := BinningLoop(rows[1..], if Contains(row.key, SIPM) then Some((tokens[0], tokens[1])) else found);
          assert forall i | 0 < i < |rows| :: rows[i] == rows[1..][i - 1];
          r
      else
        var r := BinningLoop(rows[1..], found);
        assert forall i | 0 < i < |rows| :: rows[i] == rows[1..][i - 1];
        r
  }

  /** `read_SiPM_bin_width_from_conf(h5f)`. `scale` stands for
      `float(numb) * units_dict[unit]`, which this model does not compute. */
  function ReadSiPMBinWidth(rows: seq<ConfigRow>, scale: (string, string) -> real): (r: Result<real>)
    ensures r.Err? <==> exists i | 0 <= i < |rows| :: Malformed(rows[i])
    ensures r.Err? ==> r.error == ValueError
    ensures r.Ok? && (forall i | 0 <= i < |rows| :: !IsSiPMBinning(rows[i])) ==> r.value == DEFAULT_BIN_WIDTH
    ensures r.Ok? ==>
              forall i | 0 <= i < |rows| && IsSiPMBinning(rows[i]) && (forall j | i < j < |rows| :: !IsSiPMBinning(rows[j])) ::
                && |Split(rows[i].value)| == 2
                && r.value == scale(Split(rows[i].value)[0], Split(rows[i].value)[1])
  {
    var found :- BinningLoop(rows, None);
    match found
    case None => Ok(DEFAULT_BIN_WIDTH)
    case Some(pair) => Ok(scale(pair.0, pair.1))
  }

  /** A value written as a number, one space and a unit splits back into
      that number and unit. */
  lemma SplitNumberUnit(number: string, unit: string)
    requires |number| > 0 && |unit| > 0
    requires forall i | 0 <= i < |number| :: !IsSpace(number[i])
    requires forall i | 0 <= i < |unit| :: !IsSpace(unit[i])
    ensures Split(number + " " + unit) == [number, unit]
  {
    SplitToken(number, " " + unit);
    assert number + " " + unit == number + (" " + unit);
    assert Split(" " + unit) == Split(unit) by {
      assert (" " + unit)[1..] == unit;
    }
    SplitToken(unit, "");
    assert unit + "" == unit;
  }

  /** A leading token followed by a space, or by nothing, is split off whole. */
  lemma SplitToken(token: string, rest: string)
    requires |token| > 0
    requires forall i | 0 <= i < |token| :: !IsSpace(token[i])
    requires |rest| > 0 ==> IsSpace(rest[0])
    ensures Split(token + rest) == [token] + Split(rest)
  {
    var s := token + rest;
    TokenLenOf(token, rest);
    assert s[0] == token[0];
    assert s[..|token|] == token;
    assert s[|token|..] == rest;
  }

  /** The token of `token + rest` is `token` when `rest` starts with a space or is empty. */
  lemma TokenLenOf(token: string, rest: string)
    requires forall i | 0 <= i < |token| :: !IsSpace(token[i])
    requires |rest| > 0 ==> IsSpace(rest[0])
    ensures TokenLen(token + rest) == |token|
  {
    var s := token + rest;
    assert forall i | 0 <= i < |token| :: s[i] == token[i];
    assert |rest| > 0 ==> s[|token|] == rest[0];
  }

  /** `read_mcsns_response(file, (lo, hi))`: energy waveforms, counted by
      the `last_sns_data` column, at the configured bin width. */
  function ReadMcSnsResponse(extents: seq<Extent>, waveforms: seq<WaveformRow>, config: seq<ConfigRow>,
                             lo: int, hi: int, scale: (string, string) -> real): (r: Result<Dict<int, Reader.Event>>)
    ensures (exists i | 0 <= i < |config| :: Malformed(config[i])) ==> r == Err(ValueError)
    ensures r.Ok? && (forall i | 0 <= i < |config| :: !IsSiPMBinning(config[i])) ==>
              Reader.AllSampledAt(r.value, DEFAULT_BIN_WIDTH)
    ensures r.Ok? ==>
              forall i | 0 <= i < |config| && IsSiPMBinning(config[i]) && (forall j | i < j < |config| :: !IsSiPMBinning(config[j])) ::
                && |Split(config[i].value)| == 2
                && Reader.AllSampledAt(r.value, scale(Split(config[i].value)[0], Split(config[i].value)[1]))
    // the events are read through the `last_sns_data` counters, at the configured bin width
    ensures 0 <= lo && ReadSiPMBinWidth(config, scale).Ok? ==>
              var binWidth := ReadSiPMBinWidth(config, scale).value;
              && (r.Ok? <==> Reader.AllRowsRead(extents, waveforms, lo, hi, SensorColumn(DATA_KIND), binWidth))
              && (r.Ok? ==> Reader.FiledByRow(r.value, extents, waveforms, lo, hi, SensorColumn(DATA_KIND), binWidth))
  {
    var binWidth :- ReadSiPMBinWidth(config, scale);
    var r := Reader.GoThroughFile(extents, waveforms, lo, hi, binWidth, DATA_KIND);
    assert 0 <= lo ==>
             && (r.Ok? <==> Reader.AllRowsRead(extents, waveforms, lo, hi, SensorColumn(DATA_KIND), binWidth))
             && (r.Ok? ==> Reader.FiledByRow(r.value, extents, waveforms, lo, hi, SensorColumn(DATA_KIND), binWidth))
    by {
      if 0 <= lo {
        Reader.GoThroughFileReads(extents, waveforms, lo, hi, binWidth, DATA_KIND);
      }
    }
    r
  }

  /** `read_mcTOFsns_response(file, (lo, hi))`: time-of-flight waveforms,
      counted by the `last_sns_tof` column, at 5 picoseconds per bin. A file
      whose first visited extent row has no `last_sns_tof` field raises
      numpy's `ValueError`. */
  function ReadMcTofSnsResponse(extents: seq<Extent>, tofWaveforms: seq<WaveformRow>,
                                lo: int, hi: int): (r: Result<Dict<int, Reader.Event>>)
    ensures r.Ok? ==> Reader.AllSampledAt(r.value, TOF_BIN_WIDTH)
    ensures 0 <= lo ==>
              && (r.Ok? <==> Reader.AllRowsRead(extents, tofWaveforms, lo, hi, SensorColumn(TOF_KIND), TOF_BIN_WIDTH))
              && (r.Ok? ==> Reader.FiledByRow(r.value, extents, tofWaveforms, lo, hi, SensorColumn(TOF_KIND), TOF_BIN_WIDTH))
    ensures 0 <= lo < hi && lo < |extents| && lo < Reader.SCAN_LIMIT && SensorColumn(TOF_KIND) !in extents[lo].sensorRows ==>
              r == Err(ValueError)
  {
    var r := Reader.GoThroughFile(extents, tofWaveforms, lo, hi, TOF_BIN_WIDTH, TOF_KIND);
    assert 0 <= lo ==>
             && (r.Ok? <==> Reader.AllRowsRead(extents, tofWaveforms, lo, hi, SensorColumn(TOF_KIND), TOF_BIN_WIDTH))
             && (r.Ok? ==> Reader.FiledByRow(r.value, extents, tofWaveforms, lo, hi, SensorColumn(TOF_KIND), TOF_BIN_WIDTH))
    by {
      if 0 <= lo {
        Reader.GoThroughFileReads(extents, tofWaveforms, lo, hi, TOF_BIN_WIDTH, TOF_KIND);
      }
    }
    r
  }
}

=== FILE: py.dfy ===
/** The slice of Python value semantics the waveform archive relies on:
    exceptions as a result type, sequence indexing with negative indices,
    and the insertion-ordered `dict` whose assignment overwrites a key in
    place and appends a new key at the end.
 */
module Py {

  datatype Option<+T> = None | Some(value: T)

  /** The exceptions the archive code can raise, as far as the model tells them apart. */
  datatype Error =
    | IndexError    // a table index beyond either end of the table
    | KeyError      // a missing dictionary key
    | ValueError    // a configuration value that does not unpack into two tokens, or a numpy record lacking a field
    | UnboundLocal  // the writer reads `iext` although its scan loop never ran
    | NotFound      // the requested event is absent from the scanned extents

  datatype Result<+T> = Ok(value: T) | Err(error: Error) {
    predicate IsFailure() {
      Err?
    }

    function PropagateFailure<U>(): Result<U>
      requires Err?
    {
      Err(error)
    }

    function Extract(): T
      requires Ok?
    {
      value
    }
  }

  /** Python's `s[i]`: a negative index counts from the end. */
  function Index<T>(s: seq<T>, i: int): Result<T>
  {
    if 0 <= i < |s| then Ok(s[i])
    else if -|s| <= i < 0 then Ok(s[|s| + i])
    else Err(IndexError)
  }

  // ---------------------------------------------------------------------
  // Insertion-ordered dictionaries as association lists
  // ---------------------------------------------------------------------

  predicate UniqueKeys<K(==), V>(d: seq<(K, V)>) {
    forall i, j | 0 <= i < j < |d| :: d[i].0 != d[j].0
  }

  /** A Python `dict`: its pairs in insertion order, no key twice. */
  type Dict<K(==), V> = d: seq<(K, V)> | UniqueKeys(d) witness []

  /** `list(d.keys())` */
  function Keys<K, V>(d: seq<(K, V)>): seq<K>
  {
    if |d| == 0 then [] else [d[0].0] + Keys(d[1..])
  }

  /** `d.get(k)` */
  function Get<K(==), V>(d: seq<(K, V)>, k: K): Option<V>
  {
    if |d| == 0 then None
    else if d[0].0 == k then Some(d[0].1)
    else Get(d[1..], k)
  }

  lemma {:induction false} KeysIndex<K, V>(d: seq<(K, V)>)
    ensures |Keys(d)| == |d|
    ensures forall i | 0 <= i < |d| :: Keys(d)[i] == d[i].0
  {
    if |d| > 0 {
      KeysIndex(d[1..]);
    }
  }

  /** A key has a value exactly when it is among the keys, and then the value is the one paired with it. */
  lemma {:induction false} GetIndex<K, V>(d: Dict<K, V>, k: K)
    ensures Get(d, k).Some? <==> k in Keys(d)
    ensures forall i | 0 <= i < |d| && d[i].0 == k :: Get(d, k) == Some(d[i].1)
  {
    KeysIndex(d);
    if |d| > 0 {
      var tail: Dict<K, V> := d[1..];
      GetIndex(tail, k);
      KeysIndex(tail);
    }
  }

  /** `d[k] = v`: an existing key keeps its position and takes the new
      value; a new key goes to the end. */
  function Set<K(==,!new), V>(d: Dict<K, V>, k: K, v: V): (r: Dict<K, V>)
    ensures Get(r, k) == Some(v)
    ensures forall k' | k' != k :: Get(r, k') == Get(d, k')
    ensures k in Keys(d) ==> Keys(r) == Keys(d)
    ensures k !in Keys(d) ==> r == d + [(k, v)]
  {
    KeysIndex(d);
    if k in Keys(d) then
      var r := seq(|d|, i requires 0 <= i < |d| => if d[i].0 == k then (k, v) else d[i]);
      assert forall i | 0 <= i < |d| :: r[i].0 == d[i].0;
      SetInPlace(d, r, k, v);
      r
    else
      var r := d + [(k, v)];
      assert forall i | 0 <= i < |d| :: r[i] == d[i];
      SetAppended(d, r, k, v);
      r
  }

  /** Overwriting an existing key in place. */
  lemma SetInPlace<K, V>(d: Dict<K, V>, r: Dict<K, V>, k: K, v: V)
    requires k in Keys(d)
    requires |r| == |d|
    requires forall i | 0 <= i < |d| :: r[i] == if d[i].0 == k then (k, v) else d[i]
    ensures Get(r, k) == Some(v)
    ensures forall k' | k' != k :: Get(r, k') == Get(d, k')
    ensures Keys(r) == Keys(d)
  {
    KeysIndex(d);
    KeysIndex(r);
    assert Keys(r) == Keys(d) by {
      forall i | 0 <= i < |d| ensures Keys(r)[i] == Keys(d)[i] {
        assert r[i].0 == d[i].0;
      }
    }
    assert Get(r, k) == Some(v) by {
      var i :| 0 <= i < |d| && Keys(d)[i] == k;
      assert r[i] == (k, v);
      GetIndex(r, k);
    }
    forall k' | k' != k
      ensures Get(r, k') == Get(d, k')
    {
      GetIndex(r, k');
      GetIndex(d, k');
      if j :| 0 <= j < |d| && d[j].0 == k' {
        assert r[j] == d[j];
      }
    }
  }

  /** Appending a new key at the end. */
  lemma SetAppended<K, V>(d: Dict<K, V>, r: Dict<K, V>, k: K, v: V)
    requires k !in Keys(d)
    requires r == d + [(k, v)]
    ensures Get(r, k) == Some(v)
    ensures forall k' | k' != k :: Get(r, k') == Get(d, k')
  {
    KeysIndex(d);
    KeysIndex(r);
    GetIndex(r, k);
    assert r[|d|] == (k, v);
    forall k' | k' != k
      ensures Get(r, k') == Get(d, k')
    {
      GetIndex(r, k');
      GetIndex(d, k');
      assert k' in Keys(r) <==> k' in Keys(d);
    }
  }

  /** `for k, v in pairs: acc[k] = v` */
  function FromPairs<K(==,!new), V>(acc: Dict<K, V>, pairs: seq<(K, V)>): Dict<K, V>
    decreases |pairs|
  {
    if |pairs| == 0 then acc else FromPairs(Set(acc, pairs[0].0, pairs[0].1), pairs[1..])
  }

  /** The fold is a left fold: one more pair is one more assignment at the end. */
  lemma {:induction false} FromPairsSnoc<K(!new), V>(acc: Dict<K, V>, pairs: seq<(K, V)>, p: (K, V))
    ensures FromPairs(acc, pairs + [p]) == Set(FromPairs(acc, pairs), p.0, p.1)
    decreases |pairs|
  {
    if |pairs| == 0 {
      assert pairs + [p] == [p];
    } else {
      assert (pairs + [p])[1..] == pairs[1..] + [p];
      FromPairsSnoc(Set(acc, pairs[0].0, pairs[0].1), pairs[1..], p);
    }
  }

  /** Every entry after `d[k] = v` is the new one or an entry of `d`. */
  lemma {:induction false} SetEntries<K(!new), V>(d: Dict<K, V>, k: K, v: V)
    ensures forall i | 0 <= i < |Set(d, k, v)| :: Set(d, k, v)[i] == (k, v) || Set(d, k, v)[i] in d
    decreases |d|
  {
    if |d| > 0 && d[0].0 != k {
      var tail: Dict<K, V> := d[1..];
      SetEntries(tail, k, v);
      var r := Set(d, k, v);
      assert r == [d[0]] + Set(tail, k, v);
      forall i | 1 <= i < |r| ensures r[i] == (k, v) || r[i] in d {
        assert r[i] == Set(tail, k, v)[i - 1];
      }
    }
  }

  /** A key met for the first time in the last pair becomes the last entry. */
  lemma FromPairsLastFresh<K(!new), V>(acc: Dict<K, V>, pairs: seq<(K, V)>)
    requires |pairs| > 0
    requires pairs[|pairs| - 1].0 !in Keys(acc)
    requires forall i | 0 <= i < |pairs| - 1 :: pairs[i].0 != pairs[|pairs| - 1].0
    ensures |FromPairs(acc, pairs)| > 0
    ensures FromPairs(acc, pairs)[|FromPairs(acc, pairs)| - 1] == pairs[|pairs| - 1]
  {
    var n := |pairs| - 1;
    var front := pairs[..n];
    assert pairs == front + [pairs[n]];
    FromPairsSnoc(acc, front, pairs[n]);
    FromPairsKeys(acc, front, pairs[n].0);
  }

  /** Assigning pairs whose keys are all new, and pairwise distinct, only appends them. */
  lemma {:induction false} FromPairsFresh<K(!new), V>(acc: Dict<K, V>, pairs: seq<(K, V)>)
    requires UniqueKeys(acc + pairs)
    ensures FromPairs(acc, pairs) == acc + pairs
    decreases |pairs|
  {
    if |pairs| > 0 {
      KeysIndex(acc);
      assert forall i | 0 <= i < |acc| :: (acc + pairs)[i] == acc[i];
      assert (acc + pairs)[|acc|] == pairs[0];
      assert pairs[0].0 !in Keys(acc);
      var acc': Dict<K, V> := acc + [pairs[0]];
      assert Set(acc, pairs[0].0, pairs[0].1) == acc';
      assert acc' + pairs[1..] == acc + pairs;
      FromPairsFresh(acc', pairs[1..]);
    }
  }

  /** The last pair with a given key decides that key's value; a key no pair
      names keeps the value it had. */
  lemma {:induction false} FromPairsLastWins<K(!new), V>(acc: Dict<K, V>, pairs: seq<(K, V)>, k: K)
    ensures (forall i | 0 <= i < |pairs| :: pairs[i].0 != k) ==> Get(FromPairs(acc, pairs), k) == Get(acc, k)
    ensures forall i | 0 <= i < |pairs| && pairs[i].0 == k && (forall j | i < j < |pairs| :: pairs[j].0 != k) ::
              Get(FromPairs(acc, pairs), k) == Some(pairs[i].1)
    decreases |pairs|
  {
    if |pairs| > 0 {
      var n := |pairs| - 1;
      var front := pairs[..n];
      assert pairs == front + [pairs[n]];
      FromPairsSnoc(acc, front, pairs[n]);
      FromPairsLastWins(acc, front, k);
      var before := FromPairs(acc, front);
      var after := FromPairs(acc, pairs);
      assert after == Set(before, pairs[n].0, pairs[n].1);
      if pairs[n].0 != k {
        assert Get(after, k) == Get(before, k);
        forall i | 0 <= i < n && pairs[i].0 == k && (forall j | i < j < |pairs| :: pairs[j].0 != k)
          ensures Get(after, k) == Some(pairs[i].1)
        {
          assert front[i] == pairs[i];
          forall j | i < j < n ensures front[j].0 != k {
            assert front[j] == pairs[j];
          }
        }
        if forall i | 0 <= i < |pairs| :: pairs[i].0 != k {
          forall j | 0 <= j < n ensures front[j].0 != k {
            assert front[j] == pairs[j];
          }
        }
      }
    }
  }

  /** The value stored under a key is the one of the last pair that carries it. */
  lemma FromPairsLastWinsAt<K(!new), V>(acc: Dict<K, V>, pairs: seq<(K, V)>, i: nat)
    requires i < |pairs|
    requires forall j | i < j < |pairs| :: pairs[j].0 != pairs[i].0
    ensures Get(FromPairs(acc, pairs), pairs[i].0) == Some(pairs[i].1)
  {
    FromPairsLastWins(acc, pairs, pairs[i].0);
  }

  /** The keys of a fold are the keys it started with and the keys of the pairs. */
  lemma {:induction false} FromPairsKeys<K(!new), V>(acc: Dict<K, V>, pairs: seq<(K, V)>, k: K)
    ensures k in Keys(FromPairs(acc, pairs)) <==> k in Keys(acc) || exists i | 0 <= i < |pairs| :: pairs[i].0 == k
    decreases |pairs|
  {
    if |pairs| > 0 {
      var n := |pairs| - 1;
      var front := pairs[..n];
      assert pairs == front + [pairs[n]];
      FromPairsSnoc(acc, front, pairs[n]);
      FromPairsKeys(acc, front, k);
      var d := FromPairs(acc, front);
      var s := Set(d, pairs[n].0, pairs[n].1);
      GetIndex(d, k);
      GetIndex(s, k);
      if exists i | 0 <= i < |pairs| :: pairs[i].0 == k {
        var i :| 0 <= i < |pairs| && pairs[i].0 == k;
        if i < n {
          assert front[i].0 == k;
        }
      }
    }
  }
}

=== FILE: reader.dfy ===
/** The reader `read_mcsns_response_evt` and its driver `go_through_file`:
    one event's waveforms are rebuilt from the flat waveform table, between
    two boundaries taken from the extent index, by grouping runs of rows of
    the same sensor.
 */
module Reader {
  import opened Py
  import opened Records

  /** The scan for the event stops at `int(1e9)` extent rows. */
  const SCAN_LIMIT: int := 1_000_000_000

  /** The samples of one sensor: times (time bins scaled by the bin width)
      and charges, in row order, with the bin width used. */
  datatype Waveform = Waveform(times: seq<real>, charges: seq<real>, binWidth: real)

  /** One event: sensor id to waveform, in dict order. */
  type Event = Dict<int, Waveform>

  /** Every waveform of the event carries the bin width `binWidth`. */
  ghost predicate SampledAt(ev: Event, binWidth: real)
  {
    forall j | 0 <= j < |ev| :: ev[j].1.binWidth == binWidth
  }

  /** Every event read carries the bin width `binWidth`. */
  ghost predicate AllSampledAt(d: Dict<int, Event>, binWidth: real)
  {
    forall i | 0 <= i < |d| :: SampledAt(d[i].1, binWidth)
  }

  /** `extent[col]` on a table row, a numpy record: a field the record
      lacks raises numpy's `ValueError`. */
  function Counter(e: Extent, col: string): Result<int>
  {
    if col in e.sensorRows then Ok(e.sensorRows[col]) else Err(ValueError)
  }

  /** The first waveform row of the event read with cursor `cursor`: 0 at
      cursor 0, otherwise one past the counter of the extent row before the
      cursor (not before the match). */
  function SegmentStart(extents: seq<Extent>, col: string, cursor: int): Result<int>
  {
    if cursor > 0 then
      var prev :- Index(extents, cursor - 1);
      var last :- Counter(prev, col);
      Ok(last + 1)
    else Ok(0)
  }

  /** The scan `for iext in range(cursor, int(1e9))` for the event: the row
      index of the first match, `None` when the range runs out, and the
      table's `IndexError` when the scan runs past the end of the table. */
  function Scan(extents: seq<Extent>, evt: int, i: int): Result<Option<int>>
    decreases SCAN_LIMIT - i
  {
    if i >= SCAN_LIMIT then Ok(None)
    else
      var row :- Index(extents, i);
      if row.evtNumber == evt then Ok(Some(i)) else Scan(extents, evt, i + 1)
  }

  /** The waveform rows `lo` to `hi` inclusive, each read by index. */
  function Rows(waveforms: seq<WaveformRow>, lo: int, hi: int): (r: Result<seq<WaveformRow>>)
    ensures r.Ok? <==> forall k | lo <= k <= hi :: Index(waveforms, k).Ok?
    ensures r.Err? ==> r.error == IndexError
    ensures r.Ok? ==> |r.value| == (if hi < lo then 0 else hi - lo + 1)
    ensures r.Ok? ==> forall k | lo <= k <= hi :: Ok(r.value[k - lo]) == Index(waveforms, k)
    decreases hi - lo
  {
    if hi < lo then Ok([])
    else
      var row :- Index(waveforms, lo);
      var rest :- Rows(waveforms, lo + 1, hi);
      Ok([row] + rest)
  }

  /** `np.array(time_bins) * bin_width` */
  function Scale(bins: seq<real>, binWidth: real): (times: seq<real>)
    ensures |times| == |bins|
    ensures forall k | 0 <= k < |bins| :: times[k] == bins[k] * binWidth
  {
    seq(|bins|, k requires 0 <= k < |bins| => bins[k] * binWidth)
  }

  function MakeWaveform(bins: seq<real>, charges: seq<real>, binWidth: real): Waveform
  {
    Waveform(Scale(bins, binWidth), charges, binWidth)
  }

  /** The `while iwvf <= iwvf_end` loop: `cur`, `bins` and `charges` are the
      sensor being accumulated and its samples so far; on a change of
      sensor the finished one is stored and a new one begins; at the end
      the last one is stored. */
  function GroupLoop(rows: seq<WaveformRow>, cur: int, bins: seq<real>, charges: seq<real>,
                     acc: Event, binWidth: real): Event
    decreases |rows|
  {
    if |rows| == 0 then Set(acc, cur, MakeWaveform(bins, charges, binWidth))
    else if rows[0].sensorId == cur then
      GroupLoop(rows[1..], cur, bins + [rows[0].timeBin], charges + [rows[0].charge], acc, binWidth)
    else
      GroupLoop(rows[1..], rows[0].sensorId, [rows[0].timeBin], [rows[0].charge],
                Set(acc, cur, MakeWaveform(bins, charges, binWidth)), binWidth)
  }

  /** The grouping of a non-empty segment, starting with the first row's sensor. */
  function Group(rows: seq<WaveformRow>, binWidth: real): (ev: Event)
    requires |rows| > 0
    ensures SampledAt(ev, binWidth)
  {
    GroupLoopSampled(rows, rows[0].sensorId, [], [], [], binWidth);
    GroupLoop(rows, rows[0].sensorId, [], [], [], binWidth)
  }

  /** Every waveform the loop stores is made at the bin width it is given. */
  lemma {:induction false} GroupLoopSampled(rows: seq<WaveformRow>, cur: int, bins: seq<real>,
                                            charges: seq<real>, acc: Event, binWidth: real)
    requires SampledAt(acc, binWidth)
    ensures SampledAt(GroupLoop(rows, cur, bins, charges, acc, binWidth), binWidth)
    decreases |rows|
  {
    SetEntries(acc, cur, MakeWaveform(bins, charges, binWidth));
    if |rows| > 0 {
      if rows[0].sensorId == cur {
        GroupLoopSampled(rows[1..], cur, bins + [rows[0].timeBin], charges + [rows[0].charge], acc, binWidth);
      } else {
        GroupLoopSampled(rows[1..], rows[0].sensorId, [rows[0].timeBin], [rows[0].charge],
                         Set(acc, cur, MakeWaveform(bins, charges, binWidth)), binWidth);
      }
    }
  }

  /** `read_mcsns_response_evt(tables, evt, col, bin_width, cursor)` */
  function ReadEvent(extents: seq<Extent>, waveforms: seq<WaveformRow>, evt: int, col: string,
                     binWidth: real, cursor: int): (r: Result<Event>)
    ensures r.Ok? ==> SampledAt(r.value, binWidth)
  {
    var start :- SegmentStart(extents, col, cursor);
    var found :- Scan(extents, evt, cursor);
    match found
    case None => Ok([])
    case Some(i) =>
      var row :- Index(extents, i);
      var end :- Counter(row, col);
      if end < start then Ok([])
      else
        var rows :- Rows(waveforms, start, end);
        Ok(Group(rows, binWidth))
  }

  /** `go_through_file`'s loop from extent row `i` up to `hi`: each row's
      event is read with the row itself as cursor and stored under its
      event number. */
  function Traverse(extents: seq<Extent>, waveforms: seq<WaveformRow>, i: int, hi: int, col: string,
                    binWidth: real, acc: Dict<int, Event>): (r: Result<Dict<int, Event>>)
    ensures r.Ok? && AllSampledAt(acc, binWidth) ==> AllSampledAt(r.value, binWidth)
    decreases hi - i
  {
    if i >= hi || i >= |extents| then Ok(acc)
    else
      var row :- Index(extents, i);
      var ev :- ReadEvent(extents, waveforms, row.evtNumber, col, binWidth, i);
      SetEntries(acc, row.evtNumber, ev);
      Traverse(extents, waveforms, i + 1, hi, col, binWidth, Set(acc, row.evtNumber, ev))
  }

  /** `go_through_file(h5f, waveforms, (lo, hi), bin_width, kind)` */
  function GoThroughFile(extents: seq<Extent>, waveforms: seq<WaveformRow>, lo: int, hi: int,
                         binWidth: real, kind: string): (r: Result<Dict<int, Event>>)
    ensures r.Ok? ==> AllSampledAt(r.value, binWidth)
  {
    Traverse(extents, waveforms, lo, hi, SensorColumn(kind), binWidth, [])
  }

  // ---------------------------------------------------------------------
  // Reference definition: maximal runs of one sensor
  // ---------------------------------------------------------------------

  /** A run of consecutive rows of one sensor, as its time bins and charges. */
  datatype Run = Run(sensor: int, bins: seq<real>, charges: seq<real>)

  /** Puts `run` in front of `runs`, joining it to the first run when both
      belong to the same sensor. */
  function Merge(run: Run, runs: seq<Run>): seq<Run>
  {
    if |runs| > 0 && runs[0].sensor == run.sensor then
      [Run(run.sensor, run.bins + runs[0].bins, run.charges + runs[0].charges)] + runs[1..]
    else [run] + runs
  }

  /** The segment cut into maximal runs of one sensor, in row order. */
  function Runs(rows: seq<WaveformRow>): seq<Run>
    decreases |rows|
  {
    if |rows| == 0 then []
    else Merge(Run(rows[0].sensorId, [rows[0].timeBin], [rows[0].charge]), Runs(rows[1..]))
  }

  /** Every run is non-empty and has one charge per time bin, and two
      neighbouring runs belong to different sensors. */
  ghost predicate Maximal(runs: seq<Run>)
  {
    && (forall k | 0 <= k < |runs| :: |runs[k].bins| > 0 && |runs[k].bins| == |runs[k].charges|)
    && (forall k | 0 <= k < |runs| - 1 :: runs[k].sensor != runs[k + 1].sensor)
  }

  function RunRows(run: Run): seq<WaveformRow>
    requires |run.bins| == |run.charges|
  {
    seq(|run.bins|, k requires 0 <= k < |run.bins| => WaveformRow(run.sensor, run.bins[k], run.charges[k]))
  }

  /** The rows the runs were cut from. */
  function Flatten(runs: seq<Run>): seq<WaveformRow>
    requires forall k | 0 <= k < |runs| :: |runs[k].bins| == |runs[k].charges|
  {
    if |runs| == 0 then [] else RunRows(runs[0]) + Flatten(runs[1..])
  }

  /** One dictionary entry per run: its sensor and its waveform. */
  function RunPairs(runs: seq<Run>, binWidth: real): seq<(int, Waveform)>
  {
    seq(|runs|, k requires 0 <= k < |runs| => (runs[k].sensor, MakeWaveform(runs[k].bins, runs[k].charges, binWidth)))
  }

  lemma {:induction false} RunsHead(rows: seq<WaveformRow>)
    ensures |rows| > 0 <==> |Runs(rows)| > 0
    ensures |rows| > 0 ==> Runs(rows)[0].sensor == rows[0].sensorId
  {
  }

  lemma FlattenCons(run: Run, runs: seq<Run>)
    requires |run.bins| == |run.charges|
    requires forall k | 0 <= k < |runs| :: |runs[k].bins| == |runs[k].charges|
    ensures Flatten([run] + runs) == RunRows(run) + Flatten(runs)
  {
    assert ([run] + runs)[1..] == runs;
  }

  lemma RunRowsJoin(sensor: int, b1: seq<real>, c1: seq<real>, b2: seq<real>, c2: seq<real>)
    requires |b1| == |c1| && |b2| == |c2|
    ensures RunRows(Run(sensor, b1 + b2, c1 + c2)) == RunRows(Run(sensor, b1, c1)) + RunRows(Run(sensor, b2, c2))
  {
  }

  /** `Runs` cuts the segment into maximal runs. */
  lemma {:induction false} RunsMaximal(rows: seq<WaveformRow>)
    ensures Maximal(Runs(rows))
    decreases |rows|
  {
    if |rows| > 0 {
      var rest := rows[1..];
      RunsMaximal(rest);
      RunsHead(rest);
    }
  }

  ghost predicate Balanced(runs: seq<Run>)
  {
    forall k | 0 <= k < |runs| :: |runs[k].bins| == |runs[k].charges|
  }

  lemma {:induction false} RunsFlatten(rows: seq<WaveformRow>)
    ensures Balanced(Runs(rows))
    ensures Flatten(Runs(rows)) == rows
    decreases |rows|
  {
    if |rows| > 0 {
      var rest := rows[1..];
      RunsFlatten(rest);
      var single := Run(rows[0].sensorId, [rows[0].timeBin], [rows[0].charge]);
      var R := Runs(rest);
      assert Runs(rows) == Merge(single, R);
      assert RunRows(single) == [rows[0]];
      assert rows == [rows[0]] + rest;
      if |R| > 0 && R[0].sensor == single.sensor {
        var joined := Run(single.sensor, single.bins + R[0].bins, single.charges + R[0].charges);
        assert Merge(single, R) == [joined] + R[1..];
        RunRowsJoin(single.sensor, single.bins, single.charges, R[0].bins, R[0].charges);
        assert [R[0]] + R[1..] == R;
        FlattenCons(R[0], R[1..]);
        FlattenCons(joined, R[1..]);
      } else {
        assert Merge(single, R) == [single] + R;
        FlattenCons(single, R);
      }
    }
  }

  /** `Runs` cuts the segment into maximal runs that, put together, give
      back the segment. */
  lemma RunsPartition(rows: seq<WaveformRow>)
    ensures Maximal(Runs(rows))
    ensures Flatten(Runs(rows)) == rows
  {
    RunsMaximal(rows);
    RunsFlatten(rows);
  }

  /** A row of the pending run's sensor extends the pending run. */
  lemma MergeExtends(cur: int, bins: seq<real>, charges: seq<real>, b: real, c: real, runs: seq<Run>)
    ensures Merge(Run(cur, bins, charges), Merge(Run(cur, [b], [c]), runs))
              == Merge(Run(cur, bins + [b], charges + [c]), runs)
  {
    if |runs| > 0 && runs[0].sensor == cur {
      assert bins + ([b] + runs[0].bins) == (bins + [b]) + runs[0].bins;
      assert charges + ([c] + runs[0].charges) == (charges + [c]) + runs[0].charges;
    }
  }

  /** A pending run followed by runs of another sensor is stored first. */
  lemma MergeStoresFirst(pending: Run, runs: seq<Run>, acc: Event, binWidth: real)
    requires |runs| > 0 && runs[0].sensor != pending.sensor
    ensures FromPairs(acc, RunPairs(Merge(pending, runs), binWidth))
              == FromPairs(Set(acc, pending.sensor, MakeWaveform(pending.bins, pending.charges, binWidth)),
                           RunPairs(runs, binWidth))
  {
    var all := [pending] + runs;
    assert Merge(pending, runs) == all;
    var ps := RunPairs(all, binWidth);
    assert ps[0] == (pending.sensor, MakeWaveform(pending.bins, pending.charges, binWidth));
    assert ps[1..] == RunPairs(runs, binWidth);
  }

  /** The loop, from any point, stores what storing the pending run (joined
      to the runs of the remaining rows) would store. */
  lemma {:induction false} GroupLoopStoresRuns(rows: seq<WaveformRow>, cur: int, bins: seq<real>,
                                               charges: seq<real>, acc: Event, binWidth: real)
    ensures GroupLoop(rows, cur, bins, charges, acc, binWidth)
              == FromPairs(acc, RunPairs(Merge(Run(cur, bins, charges), Runs(rows)), binWidth))
    decreases |rows|
  {
    var pending := Run(cur, bins, charges);
    if |rows| == 0 {
      var ps := RunPairs([pending], binWidth);
      assert ps[1..] == [];
    } else {
      var x := rows[0];
      var rest := rows[1..];
      var R := Runs(rest);
      assert Runs(rows) == Merge(Run(x.sensorId, [x.timeBin], [x.charge]), R);
      if x.sensorId == cur {
        GroupLoopStoresRuns(rest, cur, bins + [x.timeBin], charges + [x.charge], acc, binWidth);
        MergeExtends(cur, bins, charges, x.timeBin, x.charge, R);
      } else {
        var w := MakeWaveform(bins, charges, binWidth);
        GroupLoopStoresRuns(rest, x.sensorId, [x.timeBin], [x.charge], Set(acc, cur, w), binWidth);
        RunsHead(rows);
        MergeStoresFirst(pending, Runs(rows), acc, binWidth);
      }
    }
  }

  /** The reader's grouping equals storing every maximal run, in order, under
      its sensor: a later run of a sensor overwrites an earlier one. */
  lemma GroupStoresRuns(rows: seq<WaveformRow>, binWidth: real)
    requires |rows| > 0
    ensures Group(rows, binWidth) == FromPairs([], RunPairs(Runs(rows), binWidth))
  {
    GroupLoopStoresRuns(rows, rows[0].sensorId, [], [], [], binWidth);
    RunsHead(rows);
    var R := Runs(rows);
    assert Merge(Run(rows[0].sensorId, [], []), R) == R by {
      assert [] + R[0].bins == R[0].bins;
      assert [] + R[0].charges == R[0].charges;
      assert [R[0]] + R[1..] == R;
    }
  }

  /** A sensor none of the rows has gets no entry. */
  lemma GroupLookupAbsent(rows: seq<WaveformRow>, binWidth: real, s: int)
    requires |rows| > 0
    requires forall k | 0 <= k < |rows| :: rows[k].sensorId != s
    ensures Get(Group(rows, binWidth), s) == None
  {
    GroupStoresRuns(rows, binWidth);
    var runs := Runs(rows);
    var ps := RunPairs(runs, binWidth);
    RunsPartition(rows);
    forall k | 0 <= k < |runs|
      ensures ps[k].0 != s
    {
      RunInRows(runs, k);
    }
    FromPairsLastWins([], ps, s);
  }

  /** A sensor's entry is the waveform of its last run: a later run of the
      same sensor overwrites an earlier one. */
  lemma GroupLookupLastRun(rows: seq<WaveformRow>, binWidth: real, k: nat)
    requires |rows| > 0
    requires k < |Runs(rows)|
    requires forall j | k < j < |Runs(rows)| :: Runs(rows)[j].sensor != Runs(rows)[k].sensor
    ensures Get(Group(rows, binWidth), Runs(rows)[k].sensor)
              == Some(MakeWaveform(Runs(rows)[k].bins, Runs(rows)[k].charges, binWidth))
  {
    GroupStoresRuns(rows, binWidth);
    var runs := Runs(rows);
    var ps := RunPairs(runs, binWidth);
    assert ps[k].0 == runs[k].sensor;
    assert forall j | k < j < |ps| :: ps[j].0 != runs[k].sensor by {
      forall j | k < j < |ps| ensures ps[j].0 != runs[k].sensor {
        assert ps[j].0 == runs[j].sensor;
      }
    }
    FromPairsLastWins([], ps, runs[k].sensor);
  }

  /** Keys keep the order in which sensors first appear; so when the final
      run's sensor appears in no earlier run, the final row's sensor is the
      last key, holding the final run's waveform. */
  lemma GroupLastKey(rows: seq<WaveformRow>, binWidth: real)
    requires |rows| > 0
    requires forall k | 0 <= k < |Runs(rows)| - 1 :: Runs(rows)[k].sensor != Runs(rows)[|Runs(rows)| - 1].sensor
    ensures var g := Group(rows, binWidth);
            var last := Runs(rows)[|Runs(rows)| - 1];
            && |g| > 0
            && g[|g| - 1] == (rows[|rows| - 1].sensorId, MakeWaveform(last.bins, last.charges, binWidth))
  {
    GroupStoresRuns(rows, binWidth);
    RunsHead(rows);
    LastRunSensor(rows);
    LastRunStoredLast(Runs(rows), binWidth);
  }

  /** Storing runs whose final sensor appears in no earlier run puts that
      sensor, with the final run's waveform, last. */
  lemma LastRunStoredLast(runs: seq<Run>, binWidth: real)
    requires |runs| > 0
    requires forall k | 0 <= k < |runs| - 1 :: runs[k].sensor != runs[|runs| - 1].sensor
    ensures var g := FromPairs([], RunPairs(runs, binWidth));
            var last := runs[|runs| - 1];
            && |g| > 0
            && g[|g| - 1] == (last.sensor, MakeWaveform(last.bins, last.charges, binWidth))
  {
    var ps := RunPairs(runs, binWidth);
    var n := |runs| - 1;
    assert |ps| == n + 1;
    assert forall k | 0 <= k < n :: ps[k].0 == runs[k].sensor;
    assert ps[n].0 == runs[n].sensor;
    var empty: Dict<int, Waveform> := [];
    FromPairsLastFresh(empty, ps);
  }

  /** Each run's sensor is the sensor of one of the rows. */
  lemma RunInRows(runs: seq<Run>, k: nat)
    requires Maximal(runs) && k < |runs|
    ensures exists j | 0 <= j < |Flatten(runs)| :: Flatten(runs)[j].sensorId == runs[k].sensor
    decreases k
  {
    assert Flatten(runs) == RunRows(runs[0]) + Flatten(runs[1..]);
    if k == 0 {
      assert Flatten(runs)[0] == RunRows(runs[0])[0];
    } else {
      RunInRows(runs[1..], k - 1);
      var j :| 0 <= j < |Flatten(runs[1..])| && Flatten(runs[1..])[j].sensorId == runs[k].sensor;
      assert Flatten(runs)[|RunRows(runs[0])| + j] == Flatten(runs[1..])[j];
    }
  }

  /** The final run belongs to the sensor of the final row. */
  lemma {:induction false} LastRunSensor(rows: seq<WaveformRow>)
    requires |rows| > 0
    ensures Runs(rows)[|Runs(rows)| - 1].sensor == rows[|rows| - 1].sensorId
    decreases |rows|
  {
    RunsHead(rows);
    if |rows| > 1 {
      var rest := rows[1..];
      LastRunSensor(rest);
      RunsHead(rest);
      assert rest[|rest| - 1] == rows[|rows| - 1];
    }
  }

  /** Rows whose neighbours never share a sensor form one run each. */
  lemma {:induction false} RunsOfAlternating(rows: seq<WaveformRow>)
    requires forall k | 0 <= k < |rows| - 1 :: rows[k].sensorId != rows[k + 1].sensorId
    ensures Runs(rows) == seq(|rows|, k requires 0 <= k < |rows| => Run(rows[k].sensorId, [rows[k].timeBin], [rows[k].charge]))
    decreases |rows|
  {
    if |rows| > 0 {
      var rest := rows[1..];
      RunsOfAlternating(rest);
      RunsHead(rest);
    }
  }

  // ---------------------------------------------------------------------
  // The reader's boundaries
  // ---------------------------------------------------------------------

  /** The scan from a cursor finds the first matching row at or after it. */
  lemma {:induction false} ScanFinds(extents: seq<Extent>, evt: int, cursor: int, i: int)
    requires 0 <= cursor <= i < |extents| && i < SCAN_LIMIT
    requires extents[i].evtNumber == evt
    requires forall j | cursor <= j < i :: extents[j].evtNumber != evt
    ensures Scan(extents, evt, cursor) == Ok(Some(i))
    decreases i - cursor
  {
    if cursor < i {
      ScanFinds(extents, evt, cursor + 1, i);
    }
  }

  /** A scan that finds nothing before the end of the table runs off it. */
  lemma {:induction false} ScanRunsOff(extents: seq<Extent>, evt: int, cursor: int)
    requires 0 <= cursor <= |extents| < SCAN_LIMIT
    requires forall j | cursor <= j < |extents| :: extents[j].evtNumber != evt
    ensures Scan(extents, evt, cursor) == Err(IndexError)
    decreases |extents| - cursor
  {
    if cursor < |extents| {
      ScanRunsOff(extents, evt, cursor + 1);
    }
  }

  /** A scan over at least `int(1e9)` rows without a match comes back empty-handed. */
  lemma {:induction false} ScanGivesUp(extents: seq<Extent>, evt: int, cursor: int)
    requires 0 <= cursor && SCAN_LIMIT <= |extents|
    requires forall j | cursor <= j < SCAN_LIMIT :: extents[j].evtNumber != evt
    ensures Scan(extents, evt, cursor) == Ok(None)
    decreases SCAN_LIMIT - cursor
  {
    if cursor < SCAN_LIMIT {
      ScanGivesUp(extents, evt, cursor + 1);
    }
  }

  /** The rows between two in-table boundaries are the slice between them. */
  lemma RowsSlice(waveforms: seq<WaveformRow>, lo: int, hi: int)
    requires 0 <= lo && hi < |waveforms|
    ensures Rows(waveforms, lo, hi) == Ok(if hi < lo then [] else waveforms[lo..hi + 1])
  {
    var r := Rows(waveforms, lo, hi);
    assert r.Ok?;
    if lo <= hi {
      forall k | lo <= k <= hi
        ensures r.value[k - lo] == waveforms[k]
      {
        assert Ok(r.value[k - lo]) == Index(waveforms, k) == Ok(waveforms[k]);
      }
      assert r.value == waveforms[lo..hi + 1];
    }
  }

  /** The segment of the event matched at row `i`, scanning from `cursor`:
      it starts one past the counter of the row before the cursor (at 0 for
      cursor 0) and ends, inclusive, at the matched row's counter. An end
      before the start reads as an empty event; an end beyond the table
      raises. */
  lemma ReadEventSegment(extents: seq<Extent>, waveforms: seq<WaveformRow>, evt: int, col: string,
                         binWidth: real, cursor: int, i: int)
    requires 0 <= cursor <= i < |extents| && i < SCAN_LIMIT
    requires extents[i].evtNumber == evt
    requires forall j | cursor <= j < i :: extents[j].evtNumber != evt
    requires col in extents[i].sensorRows
    requires cursor > 0 ==> col in extents[cursor - 1].sensorRows
    ensures var start := if cursor == 0 then 0 else extents[cursor - 1].sensorRows[col] + 1;
            var end := extents[i].sensorRows[col];
            && (end < start ==> ReadEvent(extents, waveforms, evt, col, binWidth, cursor) == Ok([]))
            && (0 <= start <= end < |waveforms| ==>
                  ReadEvent(extents, waveforms, evt, col, binWidth, cursor) == Ok(Group(waveforms[start..end + 1], binWidth)))
            && (0 <= start <= end && |waveforms| <= end ==>
                  ReadEvent(extents, waveforms, evt, col, binWidth, cursor) == Err(IndexError))
  {
    ScanFinds(extents, evt, cursor, i);
    var start := if cursor == 0 then 0 else extents[cursor - 1].sensorRows[col] + 1;
    var end := extents[i].sensorRows[col];
    if 0 <= start <= end < |waveforms| {
      RowsSlice(waveforms, start, end);
    }
    if 0 <= start <= end && |waveforms| <= end {
      assert Index(waveforms, end).Err?;
      assert Rows(waveforms, start, end) == Err(IndexError);
    }
  }

  /** An event absent from the rest of a table of fewer than `int(1e9)` rows
      raises the table's `IndexError` rather than reading as empty. */
  lemma ReadEventAbsent(extents: seq<Extent>, waveforms: seq<WaveformRow>, evt: int, col: string,
                        binWidth: real, cursor: int)
    requires 0 <= cursor <= |extents| < SCAN_LIMIT
    requires forall j | cursor <= j < |extents| :: extents[j].evtNumber != evt
    requires cursor > 0 ==> col in extents[cursor - 1].sensorRows
    ensures ReadEvent(extents, waveforms, evt, col, binWidth, cursor) == Err(IndexError)
  {
    ScanRunsOff(extents, evt, cursor);
  }

  // ---------------------------------------------------------------------
  // The traversal of a file
  // ---------------------------------------------------------------------

  /** Row `j` reads without error, with itself as cursor. */
  ghost predicate Readable(extents: seq<Extent>, waveforms: seq<WaveformRow>, col: string, binWidth: real, j: int)
    requires 0 <= j < |extents|
  {
    ReadEvent(extents, waveforms, extents[j].evtNumber, col, binWidth, j).Ok?
  }

  /** Where a traversal up to `hi` stops: at `hi`, or at the end of the table. */
  function Stop(extents: seq<Extent>, hi: int): int
  {
    if hi < |extents| then hi else |extents|
  }

  /** Every row from `lo` up to `Stop(extents, hi)` reads with itself as cursor. */
  ghost predicate AllRowsRead(extents: seq<Extent>, waveforms: seq<WaveformRow>, lo: int, hi: int,
                              col: string, binWidth: real)
  {
    forall j | 0 <= lo <= j < hi && j < |extents| :: Readable(extents, waveforms, col, binWidth, j)
  }

  /** What a traversal from `lo` to `hi` files: the keys are the event
      numbers of the rows it visits, and an event number found in no later
      visited row holds the read of its row. */
  ghost predicate FiledByRow(d: Dict<int, Event>, extents: seq<Extent>, waveforms: seq<WaveformRow>,
                             lo: int, hi: int, col: string, binWidth: real)
    requires 0 <= lo
  {
    && (forall e :: Get(d, e).Some? <==> exists i | lo <= i < Stop(extents, hi) :: extents[i].evtNumber == e)
    && forall i | lo <= i < Stop(extents, hi) && (forall j | i < j < Stop(extents, hi) :: extents[j].evtNumber != extents[i].evtNumber) ::
         && ReadEvent(extents, waveforms, extents[i].evtNumber, col, binWidth, i).Ok?
         && Get(d, extents[i].evtNumber) == Some(ReadEvent(extents, waveforms, extents[i].evtNumber, col, binWidth, i).value)
  }

  /** The rows a traversal from `i` visits, and what it reads for each. */
  ghost function Visits(extents: seq<Extent>, waveforms: seq<WaveformRow>, i: int, hi: int, col: string,
                        binWidth: real): seq<(int, Event)>
    requires 0 <= i
    requires AllRowsRead(extents, waveforms, i, hi, col, binWidth)
    decreases hi - i
  {
    if i >= hi || i >= |extents| then []
    else
      assert Readable(extents, waveforms, col, binWidth, i);
      [(extents[i].evtNumber, ReadEvent(extents, waveforms, extents[i].evtNumber, col, binWidth, i).value)]
         + Visits(extents, waveforms, i + 1, hi, col, binWidth)
  }

  /** The traversal visits the rows from `i` up to the smaller of `hi` and
      the table length, in order. */
  lemma {:induction false} VisitsShape(extents: seq<Extent>, waveforms: seq<WaveformRow>, i: int, hi: int,
                                       col: string, binWidth: real)
    requires 0 <= i
    requires AllRowsRead(extents, waveforms, i, hi, col, binWidth)
    ensures var v := Visits(extents, waveforms, i, hi, col, binWidth);
            var m := Stop(extents, hi);
            && |v| == (if m < i then 0 else m - i)
            && forall k | 0 <= k < |v| :: v[k].0 == extents[i + k].evtNumber
    decreases hi - i
  {
    if i < hi && i < |extents| {
      VisitsShape(extents, waveforms, i + 1, hi, col, binWidth);
      var v := Visits(extents, waveforms, i, hi, col, binWidth);
      var rest := Visits(extents, waveforms, i + 1, hi, col, binWidth);
      forall k | 1 <= k < |v|
        ensures v[k].0 == extents[i + k].evtNumber
      {
        assert v[k] == rest[k - 1];
      }
    }
  }

  /** The `k`-th visit is row `i + k` with what the reader reads for it. */
  lemma {:induction false} VisitsAt(extents: seq<Extent>, waveforms: seq<WaveformRow>, i: int, hi: int,
                                    col: string, binWidth: real, k: nat)
    requires 0 <= i
    requires AllRowsRead(extents, waveforms, i, hi, col, binWidth)
    requires i + k < hi && i + k < |extents|
    requires Readable(extents, waveforms, col, binWidth, i + k)
    ensures k < |Visits(extents, waveforms, i, hi, col, binWidth)|
    ensures Visits(extents, waveforms, i, hi, col, binWidth)[k]
              == (extents[i + k].evtNumber, ReadEvent(extents, waveforms, extents[i + k].evtNumber, col, binWidth, i + k).value)
    decreases k
  {
    if k > 0 {
      VisitsAt(extents, waveforms, i + 1, hi, col, binWidth, k - 1);
      var v := Visits(extents, waveforms, i, hi, col, binWidth);
      var rest := Visits(extents, waveforms, i + 1, hi, col, binWidth);
      assert v[k] == rest[k - 1];
    }
  }

  /** With every visited row readable, the traversal is the fold of dict
      assignments over the visits, in row order. */
  lemma {:induction false} TraverseFolds(extents: seq<Extent>, waveforms: seq<WaveformRow>, i: int, hi: int,
                                         col: string, binWidth: real, acc: Dict<int, Event>)
    requires 0 <= i
    requires AllRowsRead(extents, waveforms, i, hi, col, binWidth)
    ensures Traverse(extents, waveforms, i, hi, col, binWidth, acc)
              == Ok(FromPairs(acc, Visits(extents, waveforms, i, hi, col, binWidth)))
    decreases hi - i
  {
    if i < hi && i < |extents| {
      var e := extents[i].evtNumber;
      assert Readable(extents, waveforms, col, binWidth, i);
      var ev := ReadEvent(extents, waveforms, e, col, binWidth, i).value;
      TraverseFolds(extents, waveforms, i + 1, hi, col, binWidth, Set(acc, e, ev));
      var v := Visits(extents, waveforms, i, hi, col, binWidth);
      assert v[0] == (e, ev);
      assert v[1..] == Visits(extents, waveforms, i + 1, hi, col, binWidth);
    }
  }

  /** An event number is a key of the folded visits exactly when some
      visited row carries it. */
  lemma VisitsKeys(extents: seq<Extent>, waveforms: seq<WaveformRow>, lo: int, hi: int,
                   col: string, binWidth: real, e: int)
    requires 0 <= lo
    requires AllRowsRead(extents, waveforms, lo, hi, col, binWidth)
    ensures var m := Stop(extents, hi);
            var d := FromPairs([], Visits(extents, waveforms, lo, hi, col, binWidth));
            Get(d, e).Some? <==> exists i | lo <= i < m :: extents[i].evtNumber == e
  {
    var m := Stop(extents, hi);
    VisitsShape(extents, waveforms, lo, hi, col, binWidth);
    var v := Visits(extents, waveforms, lo, hi, col, binWidth);
    var d := FromPairs([], v);
    FromPairsKeys([], v, e);
    GetIndex(d, e);
    if exists i | lo <= i < m :: extents[i].evtNumber == e {
      var i :| lo <= i < m && extents[i].evtNumber == e;
      assert v[i - lo].0 == e;
    }
    if exists k | 0 <= k < |v| :: v[k].0 == e {
      var k :| 0 <= k < |v| && v[k].0 == e;
      assert extents[lo + k].evtNumber == e;
    }
  }

  /** The folded visits hold, under an event number, the read of the last
      visited row that carries it. */
  lemma VisitsLastWins(extents: seq<Extent>, waveforms: seq<WaveformRow>, lo: int, hi: int,
                       col: string, binWidth: real, i: int)
    requires 0 <= lo
    requires AllRowsRead(extents, waveforms, lo, hi, col, binWidth)
    requires lo <= i < hi && i < |extents|
    requires Readable(extents, waveforms, col, binWidth, i)
    requires forall j | i < j < hi && j < |extents| :: extents[j].evtNumber != extents[i].evtNumber
    ensures Get(FromPairs([], Visits(extents, waveforms, lo, hi, col, binWidth)), extents[i].evtNumber)
              == Some(ReadEvent(extents, waveforms, extents[i].evtNumber, col, binWidth, i).value)
  {
    VisitsShape(extents, waveforms, lo, hi, col, binWidth);
    VisitsAt(extents, waveforms, lo, hi, col, binWidth, i - lo);
    var v := Visits(extents, waveforms, lo, hi, col, binWidth);
    var e := extents[i].evtNumber;
    assert v[i - lo].0 == e;
    forall k | i - lo < k < |v|
      ensures v[k].0 != v[i - lo].0
    {
      assert v[k].0 == extents[lo + k].evtNumber;
    }
    var empty: Dict<int, Event> := [];
    FromPairsLastWinsAt(empty, v, i - lo);
  }

  /** `go_through_file` reads rows `lo` up to the smaller of `hi` and the
      table length, each with the row itself as cursor, and files each
      result under the row's event number: the keys are exactly the event
      numbers of the visited rows, and a repeated event number keeps the
      read of its last row. */
  lemma GoThroughFileVisits(extents: seq<Extent>, waveforms: seq<WaveformRow>, lo: int, hi: int,
                            binWidth: real, kind: string)
    requires 0 <= lo
    requires AllRowsRead(extents, waveforms, lo, hi, SensorColumn(kind), binWidth)
    ensures GoThroughFile(extents, waveforms, lo, hi, binWidth, kind).Ok?
    ensures FiledByRow(GoThroughFile(extents, waveforms, lo, hi, binWidth, kind).value,
                       extents, waveforms, lo, hi, SensorColumn(kind), binWidth)
  {
    var col := SensorColumn(kind);
    var empty: Dict<int, Event> := [];
    TraverseFolds(extents, waveforms, lo, hi, col, binWidth, empty);
    var d := FromPairs(empty, Visits(extents, waveforms, lo, hi, col, binWidth));
    var m := Stop(extents, hi);
    forall e
      ensures Get(d, e).Some? <==> exists i | lo <= i < m :: extents[i].evtNumber == e
    {
      VisitsKeys(extents, waveforms, lo, hi, col, binWidth, e);
    }
    forall i | lo <= i < m && (forall j | i < j < m :: extents[j].evtNumber != extents[i].evtNumber)
      ensures ReadEvent(extents, waveforms, extents[i].evtNumber, col, binWidth, i).Ok?
      ensures Get(d, extents[i].evtNumber) == Some(ReadEvent(extents, waveforms, extents[i].evtNumber, col, binWidth, i).value)
    {
      assert Readable(extents, waveforms, col, binWidth, i);
      VisitsLastWins(extents, waveforms, lo, hi, col, binWidth, i);
    }
    assert FiledByRow(d, extents, waveforms, lo, hi, col, binWidth);
  }

  /** A traversal that succeeds has read every row it visited. */
  lemma {:induction false} TraverseReadAll(extents: seq<Extent>, waveforms: seq<WaveformRow>, i: int, hi: int,
                                           col: string, binWidth: real, acc: Dict<int, Event>)
    requires 0 <= i
    requires Traverse(extents, waveforms, i, hi, col, binWidth, acc).Ok?
    ensures AllRowsRead(extents, waveforms, i, hi, col, binWidth)
    decreases hi - i
  {
    if i < hi && i < |extents| {
      var e := extents[i].evtNumber;
      assert Index(extents, i) == Ok(extents[i]);
      var ev := ReadEvent(extents, waveforms, e, col, binWidth, i);
      assert ev.Ok?;
      assert Readable(extents, waveforms, col, binWidth, i);
      TraverseReadAll(extents, waveforms, i + 1, hi, col, binWidth, Set(acc, e, ev.value));
    }
  }

  /** `go_through_file` succeeds exactly when every row it visits reads
      with itself as cursor. */
  lemma GoThroughFileSucceeds(extents: seq<Extent>, waveforms: seq<WaveformRow>, lo: int, hi: int,
                              binWidth: real, kind: string)
    requires 0 <= lo
    ensures GoThroughFile(extents, waveforms, lo, hi, binWidth, kind).Ok? <==>
              AllRowsRead(extents, waveforms, lo, hi, SensorColumn(kind), binWidth)
  {
    var empty: Dict<int, Event> := [];
    if GoThroughFile(extents, waveforms, lo, hi, binWidth, kind).Ok? {
      TraverseReadAll(extents, waveforms, lo, hi, SensorColumn(kind), binWidth, empty);
    }
    if AllRowsRead(extents, waveforms, lo, hi, SensorColumn(kind), binWidth) {
      GoThroughFileVisits(extents, waveforms, lo, hi, binWidth, kind);
    }
  }

  /** What `go_through_file` promises from a non-negative start. */
  lemma GoThroughFileReads(extents: seq<Extent>, waveforms: seq<WaveformRow>, lo: int, hi: int,
                           binWidth: real, kind: string)
    requires 0 <= lo
    ensures var r := GoThroughFile(extents, waveforms, lo, hi, binWidth, kind);
            && (r.Ok? <==> AllRowsRead(extents, waveforms, lo, hi, SensorColumn(kind), binWidth))
            && (r.Ok? ==> FiledByRow(r.value, extents, waveforms, lo, hi, SensorColumn(kind), binWidth))
  {
    GoThroughFileSucceeds(extents, waveforms, lo, hi, binWidth, kind);
    if GoThroughFile(extents, waveforms, lo, hi, binWidth, kind).Ok? {
      GoThroughFileVisits(extents, waveforms, lo, hi, binWidth, kind);
    }
  }

  /** A file whose first visited extent row lacks the counter column of the
      requested waveform kind raises numpy's `ValueError`: the row before
      supplies the segment start, and the row itself the segment end. */
  lemma GoThroughFileMissingColumn(extents: seq<Extent>, waveforms: seq<WaveformRow>, lo: int, hi: int,
                                   binWidth: real, kind: string)
    requires 0 <= lo < hi && lo < |extents| && lo < SCAN_LIMIT
    requires SensorColumn(kind) !in extents[lo].sensorRows
    ensures GoThroughFile(extents, waveforms, lo, hi, binWidth, kind) == Err(ValueError)
  {
  }

  /** A negative cursor `c` is read as the row `c` from the end, which
      matches its own event at once, but the segment still starts at
      waveform row 0, since only a positive cursor looks up the row before:
      the event takes in the rows of every earlier event. */
  lemma ReadEventNegativeCursor(extents: seq<Extent>, waveforms: seq<WaveformRow>, col: string,
                                binWidth: real, cursor: int)
    requires -|extents| <= cursor < 0
    requires col in extents[|extents| + cursor].sensorRows
    ensures var row := extents[|extents| + cursor];
            var end := row.sensorRows[col];
            && (end < 0 ==> ReadEvent(extents, waveforms, row.evtNumber, col, binWidth, cursor) == Ok([]))
            && (0 <= end < |waveforms| ==>
                  ReadEvent(extents, waveforms, row.evtNumber, col, binWidth, cursor)
                    == Ok(Group(waveforms[..end + 1], binWidth)))
  {
    var row := extents[|extents| + cursor];
    assert Scan(extents, row.evtNumber, cursor) == Ok(Some(cursor));
    var end := row.sensorRows[col];
    if 0 <= end < |waveforms| {
      RowsSlice(waveforms, 0, end);
      assert waveforms[0..end + 1] == waveforms[..end + 1];
    }
  }
}

=== FILE: records.dfy ===
/** Row shapes of the Monte-Carlo archive tables. */
module Records {

  /** One row of the extent index: for event `evtNumber`, the zero-based
      index of the last row it owns in each sibling table.  The sensor
      counters are stored per waveform kind under the column name
      `last_sns_<kind>`; the writer's schema has only `last_sns_data`, while
      archives from the simulation also carry `last_sns_tof`. */
  datatype Extent = Extent(evtNumber: int, lastHit: int, lastParticle: int, sensorRows: map<string, int>)

  /** One sample of one sensor: the time bin is a multiple of the bin width. */
  datatype WaveformRow = WaveformRow(sensorId: int, timeBin: real, charge: real)

  /** A hit of the host framework's provenance tables, copied field by field. */
  datatype Hit = Hit(
    position: seq<real>, time: real, energy: real, hitLabel: string,
    particleIndex: int, hitIndex: int)

  /** A particle of the host framework's provenance tables, copied field by field. */
  datatype Particle = Particle(
    particleIndex: int, name: string, primary: int, motherIndex: int,
    initialVertex: seq<real>, finalVertex: seq<real>,
    initialVolume: string, finalVolume: string,
    momentum: seq<real>, kinEnergy: real, creatorProcess: string)

  /** A row of the key/value configuration table, already decoded to text. */
  datatype ConfigRow = ConfigRow(key: string, value: string)

  const DATA_KIND: string := "data"
  const TOF_KIND: string := "tof"

  /** The extent column that holds the sensor-row counter of a waveform kind. */
  function SensorColumn(kind: string): string
  {
    "last_sns_" + kind
  }
}

=== FILE: roundtrip.dfy ===
/** The writer and the reader agree on one indexing convention: an extent
    record's sensor counter is the zero-based, inclusive index of the event's
    last waveform row. The lemmas here show that, starting from a fresh
    writer, every event written reads back as one waveform per sensor of its
    response, in the response's order.
 */
module RoundTrip {
  import opened Py
  import opened Records
  import opened Writer
  import opened Reader
  import Config

  /** What reading back a written event yields: one entry per sensor of the
      response, in dict order, holding a single sample at time 0. */
  function ReadBack(resp: SensorResponse, binWidth: real): (ev: Event)
    ensures |ev| == |resp|
    ensures forall k | 0 <= k < |resp| :: ev[k] == (resp[k].0, Waveform([0.0], [resp[k].1], binWidth))
  {
    var ev := seq(|resp|, k requires 0 <= k < |resp| => (resp[k].0, Waveform([0.0], [resp[k].1], binWidth)));
    assert forall i, j | 0 <= i < j < |ev| :: ev[i].0 == resp[i].0 && ev[j].0 == resp[j].0;
    ev
  }

  /** The number of waveform rows the logged responses account for. */
  function Total(log: seq<SensorResponse>): nat
  {
    if |log| == 0 then 0 else Total(log[..|log| - 1]) + |log[|log| - 1]|
  }

  /** Extent record `k`'s sensor counter is the running total of sensor
      entries written through event `k`, minus one. */
  ghost predicate CounterAt(a: Archive, log: seq<SensorResponse>, k: nat)
    requires k < |log| == |a.extents|
  {
    && SensorColumn(DATA_KIND) in a.extents[k].sensorRows
    && a.extents[k].sensorRows[SensorColumn(DATA_KIND)] == Total(log[..k + 1]) - 1
  }

  /** Every extent record's counter is its running total, and the table
      holds exactly the rows of all logged responses. */
  ghost predicate RunningTotals(a: Archive, log: seq<SensorResponse>)
  {
    && |log| == |a.extents|
    && |a.waveforms| == Total(log)
    && forall k | 0 <= k < |log| :: CounterAt(a, log, k)
  }

  /** Logged event `k`, read with its own extent row as cursor, gives back
      its response. */
  ghost predicate ReadsBackAt(a: Archive, log: seq<SensorResponse>, k: nat, binWidth: real)
    requires k < |log| == |a.extents|
  {
    ReadEvent(a.extents, a.waveforms, a.extents[k].evtNumber, SensorColumn(DATA_KIND), binWidth, k)
      == Ok(ReadBack(log[k], binWidth))
  }

  /** Every logged event reads back its response. */
  ghost predicate ReadsBack(a: Archive, log: seq<SensorResponse>, binWidth: real)
  {
    && |log| == |a.extents|
    && forall k | 0 <= k < |log| :: ReadsBackAt(a, log, k, binWidth)
  }

  lemma {:induction false} TotalPrefix(log: seq<SensorResponse>, k: nat)
    requires k <= |log|
    ensures Total(log[..k]) <= Total(log)
    decreases |log|
  {
    if k < |log| {
      var front := log[..|log| - 1];
      assert log[..k] == front[..k];
      TotalPrefix(front, k);
    } else {
      assert log[..k] == log;
    }
  }

  /** The counters the writer stores never decrease from one event to the next. */
  lemma CountersNondecreasing(a: Archive, log: seq<SensorResponse>, j: nat, k: nat)
    requires RunningTotals(a, log)
    requires j <= k < |log|
    ensures SensorColumn(DATA_KIND) in a.extents[j].sensorRows && SensorColumn(DATA_KIND) in a.extents[k].sensorRows
    ensures a.extents[j].sensorRows[SensorColumn(DATA_KIND)] <= a.extents[k].sensorRows[SensorColumn(DATA_KIND)]
  {
    assert CounterAt(a, log, j) && CounterAt(a, log, k);
    var p := log[..k + 1];
    assert log[..j + 1] == p[..j + 1];
    TotalPrefix(p, j + 1);
  }

  /** The rows the writer appends for one response group back into that
      response: the response's sensors are distinct, so each row is a run
      of its own. */
  lemma GroupWrittenRows(resp: SensorResponse, binWidth: real)
    requires |resp| > 0
    ensures Group(WaveformRows(resp), binWidth) == ReadBack(resp, binWidth)
  {
    var rows := WaveformRows(resp);
    RunsOfAlternating(rows);
    GroupStoresRuns(rows, binWidth);
    var ps := RunPairs(Runs(rows), binWidth);
    var ev := ReadBack(resp, binWidth);
    forall k | 0 <= k < |resp|
      ensures ps[k] == ev[k]
    {
      assert Scale([0.0], binWidth) == [0.0];
    }
    assert ps == ev;
    assert ev == [] + ev;
    FromPairsFresh([], ev);
  }

  /** The empty archive of a fresh writer reads back the empty log. */
  lemma InitReadsBack(binWidth: real)
    ensures WvfTracks(Init())
    ensures RunningTotals(Init().out, [])
    ensures ReadsBack(Init().out, [], binWidth)
  {
  }

  /** The shape of one append: one extent record for `evt` whose counter
      is the index of the last of the response's rows, appended after the
      earlier rows. */
  ghost predicate AppendsEvent(a: Archive, a': Archive, evt: int, resp: SensorResponse)
  {
    && |a'.extents| == |a.extents| + 1
    && a'.extents[..|a.extents|] == a.extents
    && a'.extents[|a.extents|].evtNumber == evt
    && a'.extents[|a.extents|].sensorRows == map[SensorColumn(DATA_KIND) := |a.waveforms| + |resp| - 1]
    && a'.waveforms == a.waveforms + WaveformRows(resp)
  }

  lemma AppendKeepsTotals(a: Archive, a': Archive, evt: int, resp: SensorResponse, log: seq<SensorResponse>)
    requires RunningTotals(a, log)
    requires AppendsEvent(a, a', evt, resp)
    ensures RunningTotals(a', log + [resp])
  {
    var log' := log + [resp];
    var n := |a.extents|;
    assert Total(log') == Total(log) + |resp| by {
      assert log'[..|log'| - 1] == log;
    }
    forall k | 0 <= k < |log'|
      ensures CounterAt(a', log', k)
    {
      if k < n {
        assert CounterAt(a, log, k);
        assert log'[..k + 1] == log[..k + 1];
        assert a'.extents[k] == a.extents[k];
      } else {
        assert log'[..k + 1] == log';
      }
    }
  }

  /** The event just appended reads back its response: its segment starts
      one past the previous counter, which is where its rows were put. */
  lemma AppendedEventReadsBack(a: Archive, a': Archive, evt: int, resp: SensorResponse,
                               log: seq<SensorResponse>, binWidth: real)
    requires RunningTotals(a, log)
    requires |a.extents| < SCAN_LIMIT
    requires AppendsEvent(a, a', evt, resp)
    ensures ReadEvent(a'.extents, a'.waveforms, evt, SensorColumn(DATA_KIND), binWidth, |a.extents|)
              == Ok(ReadBack(resp, binWidth))
  {
    var n := |a.extents|;
    var W := |a.waveforms|;
    if n > 0 {
      assert CounterAt(a, log, n - 1);
      assert log[..n] == log;
      assert a'.extents[n - 1] == a.extents[n - 1];
      assert a'.extents[n - 1].sensorRows[SensorColumn(DATA_KIND)] + 1 == W;
    }
    assert a'.extents[n].sensorRows[SensorColumn(DATA_KIND)] == W + |resp| - 1;
    ReadEventSegment(a'.extents, a'.waveforms, evt, SensorColumn(DATA_KIND), binWidth, n, n);
    if |resp| > 0 {
      assert a'.waveforms[W..W + |resp|] == WaveformRows(resp);
      GroupWrittenRows(resp, binWidth);
    }
  }

  lemma AppendReadsBack(a: Archive, a': Archive, evt: int, resp: SensorResponse, log: seq<SensorResponse>,
                        binWidth: real)
    requires RunningTotals(a, log)
    requires ReadsBack(a, log, binWidth)
    requires |a.extents| < SCAN_LIMIT
    requires AppendsEvent(a, a', evt, resp)
    ensures ReadsBack(a', log + [resp], binWidth)
  {
    var log' := log + [resp];
    var n := |a.extents|;
    assert a'.waveforms[..|a.waveforms|] == a.waveforms;
    AppendedEventReadsBack(a, a', evt, resp, log, binWidth);
    forall k | 0 <= k < |log'|
      ensures ReadsBackAt(a', log', k, binWidth)
    {
      if k < n {
        assert ReadsBackAt(a, log, k, binWidth);
        assert a'.extents[k] == a.extents[k];
        ReadEventFrame(a, a', log, k, binWidth);
      }
    }
  }

  /** What a writer and its archive keep between calls, given the log of
      responses written so far. */
  ghost predicate Tracks(w: Writer, log: seq<SensorResponse>, binWidth: real)
  {
    WvfTracks(w) && RunningTotals(w.out, log) && ReadsBack(w.out, log, binWidth)
  }

  /** A successful call from a tracking writer appends exactly the event's
      extent record and response rows. */
  lemma StepAppends(w: Writer, src: SourceTables, responses: map<int, SensorResponse>,
                    evt: int, mcinfo: McInfoReader)
    requires WvfTracks(w)
    ensures Step(w, src, responses, evt, mcinfo).Ok? ==>
              && evt in responses
              && WvfTracks(Step(w, src, responses, evt, mcinfo).value)
              && AppendsEvent(w.out, Step(w, src, responses, evt, mcinfo).value.out, evt, responses[evt])
  {
    var r := Step(w, src, responses, evt, mcinfo);
    if r.Ok? {
      StepKeepsWvfTracks(w, src, responses, evt, mcinfo);
      var resp := responses[evt];
      assert r.value.out.waveforms == w.out.waveforms + WaveformRows(resp);
    }
  }

  /** One successful call keeps both invariants, logging the response of the
      event it wrote: the new event reads back from the rows just appended,
      and the earlier ones read the same rows as before. */
  lemma StepReadsBack(w: Writer, src: SourceTables, responses: map<int, SensorResponse>,
                      evt: int, mcinfo: McInfoReader, log: seq<SensorResponse>, binWidth: real)
    requires Tracks(w, log, binWidth)
    requires |w.out.extents| < SCAN_LIMIT
    ensures Step(w, src, responses, evt, mcinfo).Ok? ==>
              && evt in responses
              && |Step(w, src, responses, evt, mcinfo).value.out.extents| == |w.out.extents| + 1
              && Tracks(Step(w, src, responses, evt, mcinfo).value, log + [responses[evt]], binWidth)
  {
    StepAppends(w, src, responses, evt, mcinfo);
    var r := Step(w, src, responses, evt, mcinfo);
    if r.Ok? {
      AppendKeepsTotals(w.out, r.value.out, evt, responses[evt], log);
      AppendReadsBack(w.out, r.value.out, evt, responses[evt], log, binWidth);
    }
  }

  /** Appending rows after an event's segment does not change what it reads. */
  lemma ReadEventFrame(a: Archive, a': Archive, log: seq<SensorResponse>, k: nat, binWidth: real)
    requires RunningTotals(a, log)
    requires k < |a.extents| < SCAN_LIMIT
    requires |a.extents| <= |a'.extents| && a'.extents[..|a.extents|] == a.extents
    requires |a.waveforms| <= |a'.waveforms| && a'.waveforms[..|a.waveforms|] == a.waveforms
    ensures ReadEvent(a'.extents, a'.waveforms, a.extents[k].evtNumber, SensorColumn(DATA_KIND), binWidth, k)
              == ReadEvent(a.extents, a.waveforms, a.extents[k].evtNumber, SensorColumn(DATA_KIND), binWidth, k)
  {
    var n := |a.extents|;
    var evt := a.extents[k].evtNumber;
    assert CounterAt(a, log, k);
    assert k > 0 ==> CounterAt(a, log, k - 1);
    assert a'.extents[k] == a.extents[k];
    assert k > 0 ==> a'.extents[k - 1] == a.extents[k - 1];
    ReadEventSegment(a.extents, a.waveforms, evt, SensorColumn(DATA_KIND), binWidth, k, k);
    ReadEventSegment(a'.extents, a'.waveforms, evt, SensorColumn(DATA_KIND), binWidth, k, k);
    TotalPrefix(log, k + 1);
    if k > 0 {
      CountersNondecreasing(a, log, k - 1, k);
      assert log[..k][..k - 1] == log[..k - 1];
    }
    var start := if k == 0 then 0 else a.extents[k - 1].sensorRows[SensorColumn(DATA_KIND)] + 1;
    var end := a.extents[k].sensorRows[SensorColumn(DATA_KIND)];
    assert 0 <= start;
    assert end < |a.waveforms|;
    if start <= end {
      var W := |a.waveforms|;
      assert forall q | 0 <= q < W :: a'.waveforms[q] == a'.waveforms[..W][q];
      assert a'.waveforms[start..end + 1] == a.waveforms[start..end + 1];
    }
  }

  /** One call of a writing session: the source tables, the responses and
      the event number. */
  datatype Call = Call(src: SourceTables, responses: map<int, SensorResponse>, evt: int)

  /** The response a call writes: its event's entry of the responses. */
  function Logged(c: Call): SensorResponse
  {
    if c.evt in c.responses then c.responses[c.evt] else []
  }

  /** The responses a session writes, call by call. */
  function Written(calls: seq<Call>): seq<SensorResponse>
  {
    seq(|calls|, k requires 0 <= k < |calls| => Logged(calls[k]))
  }

  /** The calls applied in order from `w` by `step`; the first failing call
      ends the run. */
  function Run(w: Writer, calls: seq<Call>, step: (Writer, Call) -> Result<Writer>): Result<Writer>
    decreases |calls|
  {
    if |calls| == 0 then Ok(w)
    else
      var next :- step(w, calls[0]);
      Run(next, calls[1..], step)
  }

  /** One call of the writer, given the provenance reader. */
  function CallOf(mcinfo: McInfoReader): (Writer, Call) -> Result<Writer>
  {
    (x: Writer, c: Call) => Step(x, c.src, c.responses, c.evt, mcinfo)
  }

  /** A writing session: the calls replayed in order from `w`. */
  function Replay(w: Writer, calls: seq<Call>, mcinfo: McInfoReader): Result<Writer>
  {
    Run(w, calls, CallOf(mcinfo))
  }

  /** Any property of a writer and its log that every successful call
      keeps, while the log is shorter than `int(1e9)`, holds at the end of a
      run that stays within that bound. */
  lemma {:induction false} RunInduction(w: Writer, calls: seq<Call>, step: (Writer, Call) -> Result<Writer>,
                                        log: seq<SensorResponse>, inv: (Writer, seq<SensorResponse>) -> bool)
    requires inv(w, log)
    requires |log| + |calls| <= SCAN_LIMIT
    requires forall x: Writer, c: Call, l: seq<SensorResponse> | inv(x, l) && |l| < SCAN_LIMIT && step(x, c).Ok? ::
               inv(step(x, c).value, l + [Logged(c)])
    ensures Run(w, calls, step).Ok? ==> inv(Run(w, calls, step).value, log + Written(calls))
    decreases |calls|
  {
    if |calls| == 0 {
      assert log + Written(calls) == log;
    } else if Run(w, calls, step).Ok? {
      var c := calls[0];
      var next := step(w, c).value;
      var log' := log + [Logged(c)];
      RunInduction(next, calls[1..], step, log', inv);
      assert log' + Written(calls[1..]) == log + Written(calls);
    }
  }

  /** The invariants hold from the writer a session starts with to the one it ends with. */
  lemma ReplayKeeps(w: Writer, calls: seq<Call>, mcinfo: McInfoReader, log: seq<SensorResponse>, binWidth: real)
    requires Tracks(w, log, binWidth)
    requires |log| + |calls| <= SCAN_LIMIT
    ensures Replay(w, calls, mcinfo).Ok? ==> Tracks(Replay(w, calls, mcinfo).value, log + Written(calls), binWidth)
  {
    var inv := (x: Writer, l: seq<SensorResponse>) => Tracks(x, l, binWidth);
    var step := CallOf(mcinfo);
    forall x: Writer, c: Call, l: seq<SensorResponse> | inv(x, l) && |l| < SCAN_LIMIT && step(x, c).Ok?
      ensures inv(step(x, c).value, l + [Logged(c)])
    {
      StepReadsBack(x, c.src, c.responses, c.evt, mcinfo, l, binWidth);
    }
    RunInduction(w, calls, step, log, inv);
  }

  /** The whole-file traversal of an archive finds each logged event, and
      each event number holds the last response logged under it. */
  ghost predicate FileReadsBack(a: Archive, log: seq<SensorResponse>, binWidth: real)
  {
    && GoThroughFile(a.extents, a.waveforms, 0, SCAN_LIMIT, binWidth, DATA_KIND).Ok?
    && |log| <= |a.extents|
    && forall k | 0 <= k < |log| && (forall j | k < j < |log| :: a.extents[j].evtNumber != a.extents[k].evtNumber) ::
         Get(GoThroughFile(a.extents, a.waveforms, 0, SCAN_LIMIT, binWidth, DATA_KIND).value, a.extents[k].evtNumber)
           == Some(ReadBack(log[k], binWidth))
  }

  lemma TraversalReadsBack(a: Archive, log: seq<SensorResponse>, binWidth: real)
    requires ReadsBack(a, log, binWidth)
    requires |a.extents| <= SCAN_LIMIT
    ensures FileReadsBack(a, log, binWidth)
  {
    forall j | 0 <= j < SCAN_LIMIT && j < |a.extents|
      ensures Readable(a.extents, a.waveforms, SensorColumn(DATA_KIND), binWidth, j)
    {
      assert ReadsBackAt(a, log, j, binWidth);
    }
    assert AllRowsRead(a.extents, a.waveforms, 0, SCAN_LIMIT, SensorColumn(DATA_KIND), binWidth);
    forall k | 0 <= k < |log|
      ensures ReadEvent(a.extents, a.waveforms, a.extents[k].evtNumber, SensorColumn(DATA_KIND), binWidth, k)
                == Ok(ReadBack(log[k], binWidth))
    {
      assert ReadsBackAt(a, log, k, binWidth);
    }
    GoThroughFileVisits(a.extents, a.waveforms, 0, SCAN_LIMIT, binWidth, DATA_KIND);
    assert Stop(a.extents, SCAN_LIMIT) == |a.extents|;
  }

  /** A session of at most `int(1e9)` successful calls from a fresh writer
      leaves an archive whose every event reads back as the response it was
      written from, one by one and through the whole-file traversal. */
  lemma SessionReadsBack(calls: seq<Call>, mcinfo: McInfoReader, binWidth: real)
    requires |calls| <= SCAN_LIMIT
    ensures Replay(Init(), calls, mcinfo).Ok? ==>
              && ReadsBack(Replay(Init(), calls, mcinfo).value.out, Written(calls), binWidth)
              && FileReadsBack(Replay(Init(), calls, mcinfo).value.out, Written(calls), binWidth)
  {
    InitReadsBack(binWidth);
    ReplayKeeps(Init(), calls, mcinfo, [], binWidth);
    if Replay(Init(), calls, mcinfo).Ok? {
      assert [] + Written(calls) == Written(calls);
      TraversalReadsBack(Replay(Init(), calls, mcinfo).value.out, Written(calls), binWidth);
    }
  }

  /** A session's archive read through `read_mcsns_response` with a
      well-formed configuration: every event number comes back as the last
      response written under it, at the configured bin width. */
  lemma SessionReadsBackFromFile(calls: seq<Call>, mcinfo: McInfoReader, config: seq<ConfigRow>,
                                 scale: (string, string) -> real)
    requires |calls| <= SCAN_LIMIT
    requires forall i | 0 <= i < |config| :: !Config.Malformed(config[i])
    ensures Replay(Init(), calls, mcinfo).Ok? ==>
              var a := Replay(Init(), calls, mcinfo).value.out;
              var r := Config.ReadMcSnsResponse(a.extents, a.waveforms, config, 0, SCAN_LIMIT, scale);
              && Config.ReadSiPMBinWidth(config, scale).Ok?
              && r.Ok?
              && |a.extents| == |calls|
              && forall k | 0 <= k < |calls| && (forall j | k < j < |calls| :: a.extents[j].evtNumber != a.extents[k].evtNumber) ::
                   Get(r.value, a.extents[k].evtNumber)
                     == Some(ReadBack(Written(calls)[k], Config.ReadSiPMBinWidth(config, scale).value))
  {
    var binWidth := Config.ReadSiPMBinWidth(config, scale).value;
    SessionReadsBack(calls, mcinfo, binWidth);
    if Replay(Init(), calls, mcinfo).Ok? {
      var a := Replay(Init(), calls, mcinfo).value.out;
      assert Config.ReadMcSnsResponse(a.extents, a.waveforms, config, 0, SCAN_LIMIT, scale)
               == GoThroughFile(a.extents, a.waveforms, 0, SCAN_LIMIT, binWidth, DATA_KIND);
    }
  }

  /** No extent record of the archive has a `last_sns_tof` column, and there
      is one record per logged call. */
  ghost predicate DataOnly(w: Writer, log: seq<SensorResponse>)
  {
    && |w.out.extents| == |log|
    && forall k | 0 <= k < |w.out.extents| :: SensorColumn(TOF_KIND) !in w.out.extents[k].sensorRows
  }

  /** The writer records only the `last_sns_data` counter, so the archive of
      any session that wrote something raises numpy's `ValueError` when read
      through `read_mcTOFsns_response`, given a `tof_waveforms` table to
      read it against. */
  lemma SessionUnreadableAsTof(calls: seq<Call>, mcinfo: McInfoReader, tofWaveforms: seq<WaveformRow>, hi: int)
    requires |calls| <= SCAN_LIMIT
    requires hi > 0
    ensures Replay(Init(), calls, mcinfo).Ok? && |calls| > 0 ==>
              Config.ReadMcTofSnsResponse(Replay(Init(), calls, mcinfo).value.out.extents, tofWaveforms, 0, hi)
                == Err(ValueError)
  {
    var step := CallOf(mcinfo);
    var inv := (x: Writer, l: seq<SensorResponse>) => DataOnly(x, l);
    assert |SensorColumn(TOF_KIND)| != |SensorColumn(DATA_KIND)|;
    forall x: Writer, c: Call, l: seq<SensorResponse> | inv(x, l) && |l| < SCAN_LIMIT && step(x, c).Ok?
      ensures inv(step(x, c).value, l + [Logged(c)])
    {
      var next := Step(x, c.src, c.responses, c.evt, mcinfo).value;
      var n := |x.out.extents|;
      assert next.out.extents[n].sensorRows.Keys == {SensorColumn(DATA_KIND)};
      forall k | 0 <= k < |next.out.extents|
        ensures SensorColumn(TOF_KIND) !in next.out.extents[k].sensorRows
      {
        if k < n {
          assert next.out.extents[k] == x.out.extents[k];
        }
      }
    }
    var empty: seq<SensorResponse> := [];
    assert inv(Init(), empty);
    RunInduction(Init(), calls, step, empty, inv);
    if Replay(Init(), calls, mcinfo).Ok? && |calls| > 0 {
      assert |Written(calls)| == |calls|;
    }
  }
}

=== FILE: writer.dfy ===
/** The consolidating writer `mc_sns_response_writer`: it copies events from
    several source archives, each numbered from zero, into one output archive
    whose extent index counts rows cumulatively across all of them.

    The Python object keeps its cursor in mutable fields; here the cursor is
    an immutable value and a call is a pure step from one writer value to
    the next. The output tables are append-only sequences.
 */
module Writer {
  import opened Py
  import opened Records

  /** The source tables handed to one call (`mctables`). `id` stands for
      the identity of the Python tuple: two calls use the same tables
      exactly when they pass the same `id`. */
  datatype SourceTables = SourceTables(id: nat, extents: seq<Extent>)

  /** The host framework's provenance reader `read_mcinfo_evt`, applied to
      the tables, the event number and the writer's scan offset; it returns
      the hit and particle rows to copy. Its workings are not part of this
      model. */
  type McInfoReader = (SourceTables, int, nat) -> (seq<Hit>, seq<Particle>)

  /** The response of one event: sensor id to charge, in dict order. */
  type SensorResponse = Dict<int, real>

  /** The writer's cursor state. */
  datatype Cursor = Cursor(
    lastRow: nat,                 // next source extent row to scan
    currentTables: Option<nat>,   // identity of the tables of the previous call
    lastWrittenHit: int,
    lastWrittenParticle: int,
    lastWrittenWvf: int,
    firstExtentRow: bool,
    firstFile: bool)

  /** The four output tables. */
  datatype Archive = Archive(
    extents: seq<Extent>, hits: seq<Hit>, particles: seq<Particle>, waveforms: seq<WaveformRow>)

  datatype Writer = Writer(cursor: Cursor, out: Archive)

  const EMPTY: Archive := Archive([], [], [], [])

  /** A freshly constructed writer over empty output tables. */
  function Init(): Writer
  {
    Writer(Cursor(0, None, 0, 0, 0, true, true), EMPTY)
  }

  /** `reset()`: forget the scan position and nothing else. */
  function Reset(c: Cursor): Cursor
  {
    c.(lastRow := 0)
  }

  /** The cursor after the identity check that opens every call. */
  function Retarget(c: Cursor, src: SourceTables): Cursor
  {
    if c.currentTables != Some(src.id) then Reset(c.(currentTables := Some(src.id))) else c
  }

  /** The source row a call starts scanning from. */
  function ScanStart(c: Cursor, src: SourceTables): nat
  {
    Retarget(c, src).lastRow
  }

  /** The forward scan of the source extents for the first row, at or after
      `from`, that records event `evt`. */
  function Find(extents: seq<Extent>, evt: int, from: nat): (r: Option<nat>)
    ensures r.Some? ==> from <= r.value < |extents| && extents[r.value].evtNumber == evt
    ensures r.Some? ==> forall j | from <= j < r.value :: extents[j].evtNumber != evt
    ensures r.None? <==> forall j | from <= j < |extents| :: extents[j].evtNumber != evt
    decreases |extents| - from
  {
    if from >= |extents| then None
    else if extents[from].evtNumber == evt then Some(from)
    else Find(extents, evt, from + 1)
  }

  /** Which of the four offset rules applies to a match at source row `i`. */
  datatype Rule = FirstRowFirstFile | FirstRowLaterFile | FirstEventMidFile | SteadyState

  function SelectRule(c: Cursor, i: nat): Rule
  {
    if i == 0 then (if c.firstFile then FirstRowFirstFile else FirstRowLaterFile)
    else if c.firstExtentRow then FirstEventMidFile
    else SteadyState
  }

  /** The output counters and flags after writing the event of source row
      `i`, which has `n` sensor entries. */
  function Advance(c: Cursor, extents: seq<Extent>, i: nat, n: nat): Cursor
    requires i < |extents|
  {
    var row := extents[i];
    match SelectRule(c, i)
    case FirstRowFirstFile =>
      c.(lastWrittenHit := row.lastHit,
         lastWrittenParticle := row.lastParticle,
         lastWrittenWvf := n - 1,
         firstExtentRow := false, firstFile := false)
    case FirstRowLaterFile =>
      c.(lastWrittenHit := row.lastHit + c.lastWrittenHit + 1,
         lastWrittenParticle := row.lastParticle + c.lastWrittenParticle + 1,
         lastWrittenWvf := c.lastWrittenWvf + n,
         firstExtentRow := false)
    case FirstEventMidFile =>
      var prev := extents[i - 1];
      c.(lastWrittenHit := row.lastHit - prev.lastHit + c.lastWrittenHit - 1,
         lastWrittenParticle := row.lastParticle - prev.lastParticle + c.lastWrittenParticle - 1,
         lastWrittenWvf := c.lastWrittenWvf + n - 1,
         firstExtentRow := false, firstFile := false)
    case SteadyState =>
      var prev := extents[i - 1];
      c.(lastWrittenHit := row.lastHit - prev.lastHit + c.lastWrittenHit,
         lastWrittenParticle := row.lastParticle - prev.lastParticle + c.lastWrittenParticle,
         lastWrittenWvf := c.lastWrittenWvf + n)
  }

  /** One waveform row per (sensor, charge) entry, in dict order, at time bin 0. */
  function WaveformRows(resp: SensorResponse): seq<WaveformRow>
  {
    seq(|resp|, k requires 0 <= k < |resp| => WaveformRow(resp[k].0, 0.0, resp[k].1))
  }

  /** The writes of a call whose scan matched source row `i`. */
  function Commit(w: Writer, c: Cursor, src: SourceTables, resp: SensorResponse, evt: int, i: nat,
                  mcinfo: McInfoReader): (r: Writer)
    requires i < |src.extents|
    ensures r.cursor.lastRow == i + 1 && r.cursor.currentTables == c.currentTables
    ensures !r.cursor.firstExtentRow
    ensures !c.firstFile ==> !r.cursor.firstFile
    ensures c.firstExtentRow == c.firstFile ==> !r.cursor.firstFile
    ensures !c.firstFile && !c.firstExtentRow ==> r.cursor.lastWrittenWvf == c.lastWrittenWvf + |resp|
    ensures r.out.extents == w.out.extents
              + [Extent(evt, r.cursor.lastWrittenHit, r.cursor.lastWrittenParticle,
                        map[SensorColumn(DATA_KIND) := r.cursor.lastWrittenWvf])]
    ensures r.out.hits == w.out.hits + mcinfo(src, evt, c.lastRow).0
    ensures r.out.particles == w.out.particles + mcinfo(src, evt, c.lastRow).1
    ensures r.out.waveforms == w.out.waveforms + WaveformRows(resp)
  {
    var next := Advance(c, src.extents, i, |resp|);
    var record := Extent(evt, next.lastWrittenHit, next.lastWrittenParticle,
                         map[SensorColumn(DATA_KIND) := next.lastWrittenWvf]);
    var (hits, particles) := mcinfo(src, evt, c.lastRow);
    Writer(next.(lastRow := i + 1),
           Archive(w.out.extents + [record], w.out.hits + hits, w.out.particles + particles,
                   w.out.waveforms + WaveformRows(resp)))
  }

  /** `writer(mctables, sns_response, evt_number)`, with an absent event
      reported as `NotFound`. A call that fails leaves the writer as it was. */
  function Step(w: Writer, src: SourceTables, responses: map<int, SensorResponse>, evt: int,
                mcinfo: McInfoReader): (r: Result<Writer>)
    // the error cases
    ensures (forall j | ScanStart(w.cursor, src) <= j < |src.extents| :: src.extents[j].evtNumber != evt)
              <==> r == Err(NotFound)
    ensures r.Err? ==> r == Err(NotFound) || (r == Err(KeyError) && evt !in responses)
    ensures evt !in responses ==> r.Err?
    // the scan: the first match at or after the start row, then one past it
    ensures r.Ok? ==>
              var i := r.value.cursor.lastRow - 1;
              && ScanStart(w.cursor, src) <= i < |src.extents|
              && src.extents[i].evtNumber == evt
              && (forall j | ScanStart(w.cursor, src) <= j < i :: src.extents[j].evtNumber != evt)
    ensures r.Ok? ==> r.value.cursor.currentTables == Some(src.id)
    // the flags are only ever cleared; with the two flags in step, the first match clears both
    ensures r.Ok? ==> !r.value.cursor.firstExtentRow
    ensures r.Ok? && !w.cursor.firstFile ==> !r.value.cursor.firstFile
    ensures r.Ok? && w.cursor.firstExtentRow == w.cursor.firstFile ==> !r.value.cursor.firstFile
    // exactly one extent record, holding the counters the writer now carries
    ensures r.Ok? ==>
              var c := r.value.cursor;
              r.value.out.extents == w.out.extents
                + [Extent(evt, c.lastWrittenHit, c.lastWrittenParticle,
                          map[SensorColumn(DATA_KIND) := c.lastWrittenWvf])]
    // provenance rows copied verbatim from the host framework's reader
    ensures r.Ok? ==> r.value.out.hits == w.out.hits + mcinfo(src, evt, ScanStart(w.cursor, src)).0
    ensures r.Ok? ==> r.value.out.particles == w.out.particles + mcinfo(src, evt, ScanStart(w.cursor, src)).1
    // one waveform row per sensor entry, in order, at time bin 0
    ensures r.Ok? ==>
              var resp := responses[evt];
              var n := |w.out.waveforms|;
              && |r.value.out.waveforms| == n + |resp|
              && r.value.out.waveforms[..n] == w.out.waveforms
              && forall k | 0 <= k < |resp| ::
                   r.value.out.waveforms[n + k] == WaveformRow(resp[k].0, 0.0, resp[k].1)
    // once past the first event, the waveform counter grows by the sensor count
    ensures r.Ok? && !w.cursor.firstFile && !w.cursor.firstExtentRow ==>
              r.value.cursor.lastWrittenWvf == w.cursor.lastWrittenWvf + |responses[evt]|
  {
    var c := Retarget(w.cursor, src);
    match Find(src.extents, evt, c.lastRow)
    case None => Err(NotFound)
    case Some(i) =>
      if evt !in responses then Err(KeyError)
      else
        var r := Commit(w, c, src, responses[evt], evt, i, mcinfo);
        assert r.out.waveforms[..|w.out.waveforms|] == w.out.waveforms;
        Ok(r)
  }

  /** The call exactly as the source writes it. When the scan finds no match
      in a non-empty range, `iext` is left at the last row scanned: no extent
      record is appended, yet the provenance and waveform rows are, and the
      cursor moves past the end of the table. When the range is empty,
      `iext` was never bound and the call fails after the lookup of the
      event's response. The provenance reader is total here: the silent
      path assumes it returns, rather than raises, for an event it does not
      find. */
  function StepAsWritten(w: Writer, src: SourceTables, responses: map<int, SensorResponse>, evt: int,
                         mcinfo: McInfoReader): Result<Writer>
  {
    var c := Retarget(w.cursor, src);
    if c.lastRow >= |src.extents| then
      if evt !in responses then Err(KeyError) else Err(UnboundLocal)
    else
      match Find(src.extents, evt, c.lastRow)
      case Some(i) =>
        if evt !in responses then Err(KeyError)
        else Ok(Commit(w, c, src, responses[evt], evt, i, mcinfo))
      case None =>
        if evt !in responses then Err(KeyError)
        else
          var (hits, particles) := mcinfo(src, evt, c.lastRow);
          Ok(Writer(c.(lastRow := |src.extents|),
                    Archive(w.out.extents, w.out.hits + hits, w.out.particles + particles,
                            w.out.waveforms + WaveformRows(responses[evt]))))
  }

  // ---------------------------------------------------------------------
  // Invariants of the cursor
  // ---------------------------------------------------------------------

  /** The waveform counter is the zero-based index of the last waveform row
      written, and the last extent record carries the writer's counters.
      Before anything is written, the counters are zero and the flags set. */
  ghost predicate WvfTracks(w: Writer)
  {
    && w.cursor.firstExtentRow == w.cursor.firstFile
    && (w.cursor.firstFile ==>
          && w.out == EMPTY
          && w.cursor.lastWrittenHit == 0
          && w.cursor.lastWrittenParticle == 0
          && w.cursor.lastWrittenWvf == 0)
    && (!w.cursor.firstFile ==>
          && w.cursor.lastWrittenWvf == |w.out.waveforms| - 1
          && |w.out.extents| > 0
          && w.out.extents[|w.out.extents| - 1] ==
               Extent(w.out.extents[|w.out.extents| - 1].evtNumber,
                      w.cursor.lastWrittenHit, w.cursor.lastWrittenParticle,
                      map[SensorColumn(DATA_KIND) := w.cursor.lastWrittenWvf]))
  }

  /** The hit and particle counters are the zero-based indices of the last
      hit and particle rows written. */
  ghost predicate ProvenanceTracks(w: Writer)
  {
    && w.cursor.firstExtentRow == w.cursor.firstFile
    && (w.cursor.firstFile ==>
          |w.out.hits| == 0 && |w.out.particles| == 0
          && w.cursor.lastWrittenHit == 0 && w.cursor.lastWrittenParticle == 0)
    && (!w.cursor.firstFile ==>
          && w.cursor.lastWrittenHit == |w.out.hits| - 1
          && w.cursor.lastWrittenParticle == |w.out.particles| - 1)
  }

  /** How many hit rows the source's extent index assigns to row `i`:
      its counters are zero-based and inclusive, like the output's. */
  function HitRows(extents: seq<Extent>, i: nat): int
    requires i < |extents|
  {
    if i == 0 then extents[0].lastHit + 1 else extents[i].lastHit - extents[i - 1].lastHit
  }

  function ParticleRows(extents: seq<Extent>, i: nat): int
    requires i < |extents|
  {
    if i == 0 then extents[0].lastParticle + 1 else extents[i].lastParticle - extents[i - 1].lastParticle
  }

  /** The provenance reader returns, for every source row recording `evt`,
      as many rows as that row's extent accounts for. */
  ghost predicate SourceAccountsFor(src: SourceTables, evt: int, mcinfo: McInfoReader, offset: nat)
  {
    forall i | 0 <= i < |src.extents| && src.extents[i].evtNumber == evt ::
      && |mcinfo(src, evt, offset).0| == HitRows(src.extents, i)
      && |mcinfo(src, evt, offset).1| == ParticleRows(src.extents, i)
  }

  lemma InitTracks()
    ensures WvfTracks(Init()) && ProvenanceTracks(Init())
    ensures Init().cursor.lastRow == 0
  {
  }

  /** Every rule makes the waveform counter "rows written minus one",
      because the first event ever written subtracts the one. */
  lemma StepKeepsWvfTracks(w: Writer, src: SourceTables, responses: map<int, SensorResponse>, evt: int,
                           mcinfo: McInfoReader)
    requires WvfTracks(w)
    ensures Step(w, src, responses, evt, mcinfo).Ok? ==> WvfTracks(Step(w, src, responses, evt, mcinfo).value)
  {
  }

  /** The same for hits and particles, given a source whose extent index
      accounts for the rows its provenance reader returns. */
  lemma StepKeepsProvenanceTracks(w: Writer, src: SourceTables, responses: map<int, SensorResponse>, evt: int,
                                  mcinfo: McInfoReader)
    requires ProvenanceTracks(w)
    requires SourceAccountsFor(src, evt, mcinfo, ScanStart(w.cursor, src))
    ensures Step(w, src, responses, evt, mcinfo).Ok? ==>
              ProvenanceTracks(Step(w, src, responses, evt, mcinfo).value)
  {
  }

  /** The first event ever written stores its sensor count minus one as its
      waveform counter, whichever of the two first-event rules applies: a
      first response with no sensors stores -1. */
  lemma FirstCounter(src: SourceTables, responses: map<int, SensorResponse>, evt: int, mcinfo: McInfoReader)
    ensures Step(Init(), src, responses, evt, mcinfo).Ok? ==>
              var out := Step(Init(), src, responses, evt, mcinfo).value.out;
              && |out.extents| == 1
              && out.extents[0].sensorRows == map[SensorColumn(DATA_KIND) := |responses[evt]| - 1]
  {
  }

  /** The cursor discipline of the unit test: a new writer starts at row 0,
      a call that matches the first source row moves it to 1, and `reset()`
      brings it back to 0. */
  lemma ResetScenario(src: SourceTables, responses: map<int, SensorResponse>, mcinfo: McInfoReader)
    requires |src.extents| > 0 && src.extents[0].evtNumber in responses
    ensures Init().cursor.lastRow == 0
    ensures Step(Init(), src, responses, src.extents[0].evtNumber, mcinfo).Ok?
    ensures Step(Init(), src, responses, src.extents[0].evtNumber, mcinfo).value.cursor.lastRow == 1
    ensures Reset(Step(Init(), src, responses, src.extents[0].evtNumber, mcinfo).value.cursor).lastRow == 0
  {
  }

  /** Switching to other tables restarts the scan at row 0, while the
      cumulative counters and the flags carry over. */
  lemma RetargetKeepsCounters(c: Cursor, src: SourceTables)
    ensures c.currentTables != Some(src.id) ==> ScanStart(c, src) == 0
    ensures c.currentTables == Some(src.id) ==> ScanStart(c, src) == c.lastRow
    ensures Retarget(c, src) == c.(lastRow := ScanStart(c, src), currentTables := Some(src.id))
  {
  }

  /** As written, a call for an event that the scanned range does not hold
      still appends the event's waveform rows but no extent record, so the
      counter no longer matches the rows written. The corrected `Step`
      refuses such a call. */
  lemma AbsentEventDesynchronisesCounter(w: Writer, src: SourceTables, responses: map<int, SensorResponse>,
                                         evt: int, mcinfo: McInfoReader)
    requires WvfTracks(w) && !w.cursor.firstFile
    requires ScanStart(w.cursor, src) < |src.extents|
    requires forall j | ScanStart(w.cursor, src) <= j < |src.extents| :: src.extents[j].evtNumber != evt
    requires evt in responses && |responses[evt]| > 0
    ensures StepAsWritten(w, src, responses, evt, mcinfo).Ok?
    ensures !WvfTracks(StepAsWritten(w, src, responses, evt, mcinfo).value)
    ensures StepAsWritten(w, src, responses, evt, mcinfo).value.cursor.lastRow == |src.extents|
    ensures Step(w, src, responses, evt, mcinfo) == Err(NotFound)
  {
    var c := Retarget(w.cursor, src);
    assert Find(src.extents, evt, c.lastRow).None?;
  }

  /** Where the scan does find the event, the source and the corrected step agree. */
  lemma StepAgreesWhenFound(w: Writer, src: SourceTables, responses: map<int, SensorResponse>,
                            evt: int, mcinfo: McInfoReader)
    requires exists j | ScanStart(w.cursor, src) <= j < |src.extents| :: src.extents[j].evtNumber == evt
    ensures StepAsWritten(w, src, responses, evt, mcinfo) == Step(w, src, responses, evt, mcinfo)
  {
  }
}
